=== FILE: README.md ===
# JavaDoc external filter — a Dafny model

This project models the string-processing core of IntelliJ's `JavaDocExternalFilter`. That
class fetches a Javadoc HTML page and keeps only the part about one class or member. It
rewrites the page's links and images so that the IDE's documentation viewer can resolve
them. The model covers three parts:

- **The reference rewriter** (`References`). `RefConvertor.refFilter` scans an upper-cased
  copy of the page with `<A HREF="…">` or `<IMG SRC="…">`. It cuts the original text at the
  same indices and splices each value, converted, back in place. The model includes the link
  and image `convertReference` rules, `correctRefs` (links, then images) and
  `filterInternalDocInfo`.
- **The path normalisers** (`Patterns`). These are hand-written matchers for the class's
  fixed regular expressions: `#(.*)$`, `/[^/]*[.][hH][tT][mM][lL]?$`, `[.][hH][tT][mM][lL]?`,
  `^[.][.]/` and `/[^/^.]*/[.][.]/`. On top of them sit the leading-`../` peeling loop and
  `doAnnihilate`.
- **The page extractor** (`Extractor`). This is the line-based state machine of
  `MyJavadocFetcher.run` over a page given as a sequence of lines. It is followed by the
  composition `getExternalDocInfo` makes of it.

A fourth module, `AsWritten`, models `refFilter` as the code is written, with Java's
upper-casing restricted to ASCII letters and `ß` (which becomes `SS`), and shows where it
parts from the model (see "## Findings").

Modelling choices:

- Java's regular-expression semantics are written out by hand:
  - `$` without MULTILINE holds at the end of input, or before one final line terminator
    (`\n`, `\r`, `\r\n`, U+0085, U+2028, U+2029);
  - `.` does not match a line terminator;
  - greedy `[^>]*"` backs off to the last `"` before the first `>`;
  - `find` is leftmost, and `replaceAll` resumes after each match.
- `String.toUpperCase` is modelled on ASCII letters (`Text.Upper`), which keeps the length.
  The cut indices of `refFilter` rely on that; see "## Findings".
- `BrowserUtil.isAbsoluteURL`, `findClass(…) != null` and `JavaDocUtil.fixupText` are the
  fields of an `Oracles` value.
- `null` is modelled as `None`.

Two consequences of the code worth knowing:

- A `#fragment` link keeps the root's `.html` file segment:
  `doc_element://http://x/Y.html#foo`.
- For a relative link to an unknown class, the `doc_element://` path is
  `doAnnihilate(nakedRoot + href)`, with the original `href`.

## Model

| member | source | states |
|---|---|---|
| Text.Upper | codeInsight/impl/com/intellij/codeInsight/javadoc/JavaDocExternalFilter.java:76 | upper-casing maps each character on its own and keeps the length, so indices found in the upper-cased copy are valid in the original |
| Text.ContainsOccurs | codeInsight/impl/com/intellij/codeInsight/javadoc/JavaDocExternalFilter.java:388 | `indexOf(pat) != -1` holds exactly when `pat` occurs at some index of the string |
| Patterns.AnchorFrom | codeInsight/impl/com/intellij/codeInsight/javadoc/JavaDocExternalFilter.java:47 | `find` for `#(.*)$` reports a real match, and no match starts between the search start and the one reported (none at all when nothing is reported) |
| Patterns.AnchorMatchEnd | codeInsight/impl/com/intellij/codeInsight/javadoc/JavaDocExternalFilter.java:47 | a match of `#(.*)$` can only end at the first line terminator after its `#` |
| Patterns.StripAnchor | codeInsight/impl/com/intellij/codeInsight/javadoc/JavaDocExternalFilter.java:258 | removing the `#…` tail never lengthens; a string without a match is unchanged; otherwise exactly the first match is cut out; on one line the result is the prefix before the first `#` |
| Patterns.AnchorGroupOneLine | codeInsight/impl/com/intellij/codeInsight/javadoc/JavaDocExternalFilter.java:373-375 | for a URL on one line the anchor group is everything after the first `#`, and there is none without a `#` |
| Patterns.FileSegmentUnique | codeInsight/impl/com/intellij/codeInsight/javadoc/JavaDocExternalFilter.java:48 | a string has at most one `/name.htm(l)` segment before `$` |
| Patterns.NakedRoot | codeInsight/impl/com/intellij/codeInsight/javadoc/JavaDocExternalFilter.java:104 | the naked root is the root with its final `/name.htm(l)` segment, in any case, replaced by `/`; a root without one is unchanged |
| Patterns.StripHtmlExt | codeInsight/impl/com/intellij/codeInsight/javadoc/JavaDocExternalFilter.java:121 | removing `.htm(l)` never lengthens the reference, and leaves it unchanged exactly when no `.htm` (any case) occurs in it |
| Patterns.StripHtmlExtRemoves | codeInsight/impl/com/intellij/codeInsight/javadoc/JavaDocExternalFilter.java:121 | the result is the text between the matches `replaceAll` removes: each the leftmost `.htm` (any case) after the previous one, with its greedy `l`, and no `.htm` left in any gap |
| Patterns.HtmMatchesExist | codeInsight/impl/com/intellij/codeInsight/javadoc/JavaDocExternalFilter.java:121 | the matches of `replaceAll` exist on every reference, so the stripping always has that description |
| Patterns.PeelParents | codeInsight/impl/com/intellij/codeInsight/javadoc/JavaDocExternalFilter.java:124 | the `../` peeling do-while itself, stripping while the length shrinks; its contract is `PeelParentsSpec` |
| Patterns.PeelParentsSpec | codeInsight/impl/com/intellij/codeInsight/javadoc/JavaDocExternalFilter.java:124 | the peeling loop ends with no leading `../`, and the input is exactly the leading run of `../` followed by the result, so nothing else changes |
| Patterns.CollapsePass | codeInsight/impl/com/intellij/codeInsight/javadoc/JavaDocExternalFilter.java:148 | one `replaceAll("/")` of `/[^/^.]*/[.][.]/` itself, from a scan index; its contracts are `CollapsePassSpec` and `CollapsePassRemoves` |
| Patterns.Annihilate | codeInsight/impl/com/intellij/codeInsight/javadoc/JavaDocExternalFilter.java:144-153 | `doAnnihilate` itself: passes repeat while they shorten the path; its contracts are `AnnihilateSpec`, `AnnihilateCollapses` and `AnnihilateIdempotent` |
| Patterns.CollapsePassSpec | codeInsight/impl/com/intellij/codeInsight/javadoc/JavaDocExternalFilter.java:148 | one `replaceAll` of `/seg/../` never lengthens; it keeps the length exactly when there is nothing to collapse, and then it changes nothing |
| Patterns.AnnihilateSpec | codeInsight/impl/com/intellij/codeInsight/javadoc/JavaDocExternalFilter.java:144-153 | `doAnnihilate` never lengthens, leaves no `/seg/../`, and returns its input unchanged exactly when the input has none |
| Patterns.AnnihilateIdempotent | codeInsight/impl/com/intellij/codeInsight/javadoc/JavaDocExternalFilter.java:144-153 | `doAnnihilate` applied twice gives what it gives once |
| Patterns.CollapseAtSpec | codeInsight/impl/com/intellij/codeInsight/javadoc/JavaDocExternalFilter.java:148 | the match test at an index reports a `/seg/../` exactly when one starts there, with its end |
| Patterns.CollapsePassStep | codeInsight/impl/com/intellij/codeInsight/javadoc/JavaDocExternalFilter.java:148 | a pass copies the path up to the first `/seg/../`, writes `/` for it, and resumes just past it |
| Patterns.CollapsePassRemoves | codeInsight/impl/com/intellij/codeInsight/javadoc/JavaDocExternalFilter.java:148 | one `replaceAll` of `/seg/../` is the gaps between its matches joined by `/`: each match the leftmost one after the previous, and none starting in a gap |
| Patterns.AnnihilatorMatchesExist | codeInsight/impl/com/intellij/codeInsight/javadoc/JavaDocExternalFilter.java:148 | those matches exist on every path, so every pass has that description |
| Patterns.AnnihilateCollapses | codeInsight/impl/com/intellij/codeInsight/javadoc/JavaDocExternalFilter.java:144-153 | with no match `doAnnihilate` returns the path; otherwise the pass's result is shorter and `doAnnihilate` goes on with it |
| Patterns.SlashesToDots | codeInsight/impl/com/intellij/codeInsight/javadoc/JavaDocExternalFilter.java:126 | `replaceAll("/", ".")` keeps the length, turns every `/` into `.`, and keeps every other character |
| References.SelectorMatchDetermined | codeInsight/impl/com/intellij/codeInsight/javadoc/JavaDocExternalFilter.java:49 | the selector can match at a given index with one group only: the spaces, then the attribute, then up to the last `"` before the first `>` |
| References.MatchAt | codeInsight/impl/com/intellij/codeInsight/javadoc/JavaDocExternalFilter.java:49-51 | the selector's match test at an index: a reported group lies past the tag, between two `"`; `MatchAtSound` and `MatchAtComplete` tie it to the regular expression in both directions |
| References.FindFrom | codeInsight/impl/com/intellij/codeInsight/javadoc/JavaDocExternalFilter.java:81 | `matcher.find()` itself: a reported hit is a match at or after the search start; `FindFromLeftmost` adds that it is the leftmost |
| References.MatchAtSound | codeInsight/impl/com/intellij/codeInsight/javadoc/JavaDocExternalFilter.java:49-51 | the hand-written matcher reports only matches of `<A[ \t\n\r\f]+HREF="([^>]*)"` (or the IMG/SRC twin) |
| References.MatchAtComplete | codeInsight/impl/com/intellij/codeInsight/javadoc/JavaDocExternalFilter.java:49-51 | every match of the selector at an index is the one the matcher reports there |
| References.FindFromLeftmost | codeInsight/impl/com/intellij/codeInsight/javadoc/JavaDocExternalFilter.java:81 | `matcher.find()` reports the leftmost selector match from its starting point, or none when there is none |
| References.SearchFinds | codeInsight/impl/com/intellij/codeInsight/javadoc/JavaDocExternalFilter.java:81-85 | each group `find` reports lies after the search start, between two `"` of the searched text |
| References.SpansQuoted | codeInsight/impl/com/intellij/codeInsight/javadoc/JavaDocExternalFilter.java:81-85 | every group the loop visits is a value between two `"` |
| References.UpperQuoted | codeInsight/impl/com/intellij/codeInsight/javadoc/JavaDocExternalFilter.java:76-83 | a value quoted in the upper-cased copy is quoted at the same indices in the original page |
| References.Reassemble | codeInsight/impl/com/intellij/codeInsight/javadoc/JavaDocExternalFilter.java:82-92 | cutting the page at quoted values and splicing the same values back gives the page again |
| References.FilterFrom | codeInsight/impl/com/intellij/codeInsight/javadoc/JavaDocExternalFilter.java:81-92 | the `while (matcher.find())` loop itself, with `prev` as the scan index; its contract is `FilterIsSplice` |
| References.FilterIsSplice | codeInsight/impl/com/intellij/codeInsight/javadoc/JavaDocExternalFilter.java:81-92 | the `refFilter` loop yields the gaps between the matched values, spliced with the converted values in quotes |
| References.RefFilter | codeInsight/impl/com/intellij/codeInsight/javadoc/JavaDocExternalFilter.java:75-95 | `refFilter` itself, searching the upper-cased page; its contracts are `RefFilterSplicesConvertedValues` and `RefFilterUnchanged` |
| References.RefFilterSplicesConvertedValues | codeInsight/impl/com/intellij/codeInsight/javadoc/JavaDocExternalFilter.java:75-95 | the page and the `refFilter` output share the same gaps, copied verbatim and in order, tail included; the page holds the original values, the output holds each value's conversion in quotes |
| References.RefFilterUnchanged | codeInsight/impl/com/intellij/codeInsight/javadoc/JavaDocExternalFilter.java:75-95 | `refFilter` returns the page unchanged when every matched value converts to itself, in particular when nothing matches |
| References.ElementRef | codeInsight/impl/com/intellij/codeInsight/javadoc/JavaDocExternalFilter.java:121-126 | `elementRef` itself; its contract is `ElementRefSpec` |
| References.ClassRef | codeInsight/impl/com/intellij/codeInsight/javadoc/JavaDocExternalFilter.java:127 | `classRef` itself, `elementRef` without its `#…` tail; `LinkRule` states that on one line it holds no `#` |
| References.ElementRefSpec | codeInsight/impl/com/intellij/codeInsight/javadoc/JavaDocExternalFilter.java:121-126 | the element reference holds no `/`, and comes from the reference without `.htm(l)` with its whole leading run of `../` peeled off |
| References.ConvertLink | codeInsight/impl/com/intellij/codeInsight/javadoc/JavaDocExternalFilter.java:110-133 | the link rewriter's `convertReference` itself; its contract is `LinkRule` |
| References.LinkRule | codeInsight/impl/com/intellij/codeInsight/javadoc/JavaDocExternalFilter.java:110-133 | an absolute URL is kept; `#…` gives `doc_element://` + unstripped root + href; a known class gives `psi_element://` + an element reference without `/` (its class name has no `#`, for one line); anything else gives `doc_element://` + a collapsed path of naked root + original href, with no `/seg/../` left and no longer than that concatenation |
| References.ConvertImage | codeInsight/impl/com/intellij/codeInsight/javadoc/JavaDocExternalFilter.java:99-105 | the image rewriter's `convertReference` itself; its contract is `ImageRule` |
| References.ImageRule | codeInsight/impl/com/intellij/codeInsight/javadoc/JavaDocExternalFilter.java:98-106 | `#…` gives `doc_element://` + root + href; anything else, absolute or not, is the root with its final file segment cut back to `/`, followed by href |
| References.CorrectRefs | codeInsight/impl/com/intellij/codeInsight/javadoc/JavaDocExternalFilter.java:236-244 | `correctRefs` itself, the link rewriter and then the image rewriter; its contracts are `CorrectRefsSplices` and `CorrectRefsNoMatch` |
| References.CorrectRefsSplices | codeInsight/impl/com/intellij/codeInsight/javadoc/JavaDocExternalFilter.java:236-244 | `correctRefs` rewrites the link values in place, then the image values of that output in place, once each and in that order |
| References.CorrectRefsNoMatch | codeInsight/impl/com/intellij/codeInsight/javadoc/JavaDocExternalFilter.java:236-244 | a page with no link and no image match comes out of `correctRefs` unchanged |
| References.FilterInternalDocInfo | codeInsight/impl/com/intellij/codeInsight/javadoc/JavaDocExternalFilter.java:246-261 | null text gives null; null URL gives `fixupText(text)`; otherwise the fixed text is rewritten against the URL without its `#…` tail |
| References.FilterInternalDocInfoRoot | codeInsight/impl/com/intellij/codeInsight/javadoc/JavaDocExternalFilter.java:258-260 | for a URL on one line, the root is the URL cut at its first `#` |
| Extractor.SectionsFor | codeInsight/impl/com/intellij/codeInsight/javadoc/JavaDocExternalFilter.java:368-377 | the choice of start and end markers itself; its contract is `SectionsForUrl` |
| Extractor.SectionsForUrl | codeInsight/impl/com/intellij/codeInsight/javadoc/JavaDocExternalFilter.java:368-377 | for a URL on one line: with a `#`, the start marker is `<A NAME="` + everything after the first `#`, upper-cased, + `"`, and the end marker is `<A NAME=`; without a `#`, the markers are the class-data ones |
| Extractor.StopAt | codeInsight/impl/com/intellij/codeInsight/javadoc/JavaDocExternalFilter.java:385-388 | the line a reading loop stops at, never before its start nor past the end of the page; `StopAtIsFirst` states that it is the first stopping line |
| Extractor.StopAtIsFirst | codeInsight/impl/com/intellij/codeInsight/javadoc/JavaDocExternalFilter.java:385-388 | each reading loop stops at the first line meeting its condition, or at the end of the page when none does |
| Extractor.HeaderOut | codeInsight/impl/com/intellij/codeInsight/javadoc/JavaDocExternalFilter.java:398-407 | the heading loop itself; its contracts are `HeaderCopies` and `HeaderSkipping` |
| Extractor.HeaderCopies | codeInsight/impl/com/intellij/codeInsight/javadoc/JavaDocExternalFilter.java:398-407 | before the first `</H2>` line, heading lines are copied verbatim; that line becomes `</H2>`; without one, all lines are copied |
| Extractor.HeaderSkipping | codeInsight/impl/com/intellij/codeInsight/javadoc/JavaDocExternalFilter.java:402-406 | once skipping, only a `</H2>` per heading line comes out |
| Extractor.ReplaceDt | codeInsight/impl/com/intellij/codeInsight/javadoc/JavaDocExternalFilter.java:418 | `replaceAll(DT, DT + BR)` itself; its contracts are `ReplaceDtRoundTrip`, `ReplaceDtWithoutDt`, `ReplaceDtBrAfterDt` and `NoDtCreated` |
| Extractor.ReplaceDtRoundTrip | codeInsight/impl/com/intellij/codeInsight/javadoc/JavaDocExternalFilter.java:418 | removing the `<BR>` again after each `<DT>` restores the line, so the rewrite only inserts `<BR>` |
| Extractor.ReplaceDtWithoutDt | codeInsight/impl/com/intellij/codeInsight/javadoc/JavaDocExternalFilter.java:418 | a line without `<DT>` is left as it is |
| Extractor.ReplaceDtBrAfterDt | codeInsight/impl/com/intellij/codeInsight/javadoc/JavaDocExternalFilter.java:418 | every `<DT>` of the rewritten line is followed by `<BR>` |
| Extractor.NoDtCreated | codeInsight/impl/com/intellij/codeInsight/javadoc/JavaDocExternalFilter.java:418 | a rewritten line that did not start with `<DT>` does not start with one either: the first character is kept and the next three cannot spell `DT>` |
| Extractor.DropHr | codeInsight/impl/com/intellij/codeInsight/javadoc/JavaDocExternalFilter.java:425-429 | the `<HR>` filter of the trailing loop itself; its contracts are `DropHrLineByLine` and `DropHrKeeps` |
| Extractor.DropHrLineByLine | codeInsight/impl/com/intellij/codeInsight/javadoc/JavaDocExternalFilter.java:425-429 | the trailing loop works line by line: over a concatenation, and a single line is kept exactly when its upper-cased form lacks `<HR>` |
| Extractor.DropHrKeeps | codeInsight/impl/com/intellij/codeInsight/javadoc/JavaDocExternalFilter.java:425-429 | no kept line holds `<HR>` in any case; lines are only dropped, never added; the lines are kept whole exactly when none holds `<HR>` |
| Extractor.Extract | codeInsight/impl/com/intellij/codeInsight/javadoc/JavaDocExternalFilter.java:368-431 | `MyJavadocFetcher.run` on a page it could read; its contracts are `ExtractEmpty`, `ExtractFrame`, `MemberPageLayout` and `ClassPageLayout` |
| Extractor.ExtractEmpty | codeInsight/impl/com/intellij/codeInsight/javadoc/JavaDocExternalFilter.java:385-394 | the data is empty exactly when no upper-cased line holds the start marker |
| Extractor.ExtractFrame | codeInsight/impl/com/intellij/codeInsight/javadoc/JavaDocExternalFilter.java:381-431 | otherwise the data starts with `<HTML>` and the first marker line, and ends with `</HTML>` |
| Extractor.MemberPageLayout | codeInsight/impl/com/intellij/codeInsight/javadoc/JavaDocExternalFilter.java:425-431 | on a member page, the marker line is followed by the next lines up to the first one holding `<A NAME=` as written (case-sensitive), less those with `<HR>` |
| Extractor.ClassPageLayout | codeInsight/impl/com/intellij/codeInsight/javadoc/JavaDocExternalFilter.java:398-431 | on a class page the order is: heading, `<DL>`, the `<DT>` block with `<BR>` added, the class details read before it, `<P>`, then the trailing lines less `<HR>` ones |
| Extractor.ExternalDocInfo | codeInsight/impl/com/intellij/codeInsight/javadoc/JavaDocExternalFilter.java:288-309 | the result is null exactly when the URL is null |
| Extractor.ExternalDocInfoNothingFound | codeInsight/impl/com/intellij/codeInsight/javadoc/JavaDocExternalFilter.java:364-394 | a page for which no reader is returned, or that lacks the start marker, yields `fixupText` of the empty text |
| Extractor.ExternalDocInfoFound | codeInsight/impl/com/intellij/codeInsight/javadoc/JavaDocExternalFilter.java:305-309 | for a URL on one line and a page holding the start marker, the data framed by `<HTML>` and the first marker line and by `</HTML>` is rewritten against the URL cut at its first `#`, then passed to `fixupText` |
| AsWritten.JavaUpper | codeInsight/impl/com/intellij/codeInsight/javadoc/JavaDocExternalFilter.java:76 | `toUpperCase` restricted to ASCII letters and `ß`; its contracts are `JavaUpperWithoutSharpS` and `SharpSFrontUpper` |
| AsWritten.JavaUpperWithoutSharpS | codeInsight/impl/com/intellij/codeInsight/javadoc/JavaDocExternalFilter.java:76 | on text without `ß`, the upper-casing restricted to ASCII letters and `ß` is the length-preserving one of the model |
| AsWritten.SharpSFrontUpper | codeInsight/impl/com/intellij/codeInsight/javadoc/JavaDocExternalFilter.java:76 | a leading `ß` upper-cases to the two letters `SS`, so the copy grows by one character |
| AsWritten.FilterAsWritten | codeInsight/impl/com/intellij/codeInsight/javadoc/JavaDocExternalFilter.java:81-92 | the loop of `refFilter` as written, a `substring` out of range as no result; its contracts are `AsWrittenAgrees` and `AsWrittenOneLink` |
| AsWritten.AsWrittenAgrees | codeInsight/impl/com/intellij/codeInsight/javadoc/JavaDocExternalFilter.java:75-92 | when the searched copy is as long as the page, the loop as written never throws and yields the model's output |
| AsWritten.RefFilterAsWritten | codeInsight/impl/com/intellij/codeInsight/javadoc/JavaDocExternalFilter.java:75-92 | `refFilter` as written, searching the restricted upper-casing of the page; its contracts are `RefFilterAsWrittenWithoutSharpS` and `SharpSCorruptsLink` |
| AsWritten.RefFilterAsWrittenWithoutSharpS | codeInsight/impl/com/intellij/codeInsight/javadoc/JavaDocExternalFilter.java:75-92 | on a page without `ß`, `refFilter` as written, with that restricted upper-casing, is the model's `refFilter` |
| AsWritten.AsWrittenOneLink | codeInsight/impl/com/intellij/codeInsight/javadoc/JavaDocExternalFilter.java:81-91 | with one match whose closing quote lies inside the page, and none after it, the output is the page before the opening quote, the converted value in quotes, then the page after the closing quote, all cut at the indices found in the searched copy |
| AsWritten.SharpSPageUpper | codeInsight/impl/com/intellij/codeInsight/javadoc/JavaDocExternalFilter.java:76 | `ß<A HREF="X">` upper-cases to `SS<A HREF="X">` |
| AsWritten.SharpSPageSearch | codeInsight/impl/com/intellij/codeInsight/javadoc/JavaDocExternalFilter.java:79-81 | in that copy the link matches at index 2 with its value at [11, 12), and no match follows |
| AsWritten.SharpSCorruptsLink | codeInsight/impl/com/intellij/codeInsight/javadoc/JavaDocExternalFilter.java:75-92 | as written, `ß<A HREF="X">` comes out as `ß<A HREF=""""` even when the conversion returns its argument |
| AsWritten.SharpSPageKept | codeInsight/impl/com/intellij/codeInsight/javadoc/JavaDocExternalFilter.java:75-92 | the model's `refFilter` leaves that page unchanged under the identity conversion, unlike the code as written |

## Left out

- `isJavaDocURL` (lines 161-234): a pooled thread with `wait`/`notify` and shared arrays; its point is timing.
- `getReaderByUrl` (lines 265-284): URL connections, proxies, VFS and jar loading, and stream encodings are I/O. The page arrives as a sequence of lines, or as `None` when no reader is returned.
- Splitting the stream into lines (`BufferedReader.readLine`) is not modelled; the lines are given.
- The fetch slot (`ourFree`, `isFree`, `cleanup`) and the `Future.get()` orchestration in `getExternalDocInfo`: concurrency plumbing. `ExternalDocInfo` models the call once the fetch has finished.
- Exception capture and rethrow, and logging: I/O error plumbing. An `IOException` in the middle of the page is not modelled.
- `getExternalDocInfoForElement` (lines 315-326): it needs the PSI method and the unseen output of `fixupText`.
- `BrowserUtil.isAbsoluteURL`, `PsiManager.findClass` and `JavaDocUtil.fixupText` are foreign code whose source is not part of this model. They are uninterpreted parameters.
- Text.Upper: does not model the case mappings of non-ASCII letters, because `refFilter` needs a length-preserving case fold; "## Findings" records what `ß` does to it.
- Text.Upper: does not model the default locale that `toUpperCase` uses (lines 76, 375, 388, 401, 402, 413, 417, 426). Under a Turkish or Azerbaijani locale `i` upper-cases to `İ`, so at line 76 a lower-case `<img src=…>` never matches the image selector and its source is not rewritten, while the model rewrites it. The other markers hold no `i`, and an anchor is upper-cased the same way on both sides of the comparison at lines 375 and 388. The model upper-cases as in a locale without such rules.
- AsWritten.JavaUpper: maps only ASCII letters and `ß`. Java's special casing lengthens other characters too (`ﬁ` to `FI`, `ŉ` to `ʼN`, `ǰ`, `ΐ` and more). So `AsWritten.JavaUpperWithoutSharpS` and `AsWritten.RefFilterAsWrittenWithoutSharpS` hold of that restricted mapping, not of every page without `ß`.
- The other files of the repository (the IDE message panel, the inner-class quick fix, the JavaFX attribute references, the UAST comment wrapper) are not part of this model.

## Findings

| source | as written | input that shows it | evidently intended | confidence | as-written member | corrected member |
|---|---|---|---|---|---|---|
| codeInsight/impl/com/intellij/codeInsight/javadoc/JavaDocExternalFilter.java:76-92 | the selector searches `read.toUpperCase()` and its group indices cut `read`, although `toUpperCase` can lengthen the text: `ß` becomes `SS`, and it is one of several such characters (`ﬁ`, `ŉ`, `ǰ`, `ΐ`, …) | the page `ß<A HREF="X">`: the copy `SS<A HREF="X">` is one character longer, the value cut from the page is `"` instead of `X`, and the link comes out as `ß<A HREF=""""` | cut at indices that agree with the page, for instance by searching a length-preserving upper-cased copy, so that every cut value is a quoted value of the page | not executed | AsWritten.SharpSCorruptsLink | References.RefFilterSplicesConvertedValues |

=== FILE: as_written.dfy ===
/** `refFilter` as written, with Java's upper-casing restricted to ASCII letters and `ß`:
    `String.toUpperCase` turns `ß` into the two letters `SS`, so the copy the selector searches
    can be longer than the page it cuts, and the indices no longer line up (lines 76-92 of
    JavaDocExternalFilter.java). `ß` is one of several characters that lengthen this way. */
module AsWritten {
  import opened Wrappers
  import opened Text
  import opened References

  const SharpS: char := '\U{00DF}'

  /** `String.toUpperCase` restricted to ASCII letters and `ß`, which becomes `SS`. */
  function JavaUpper(s: string): string
    decreases |s|
  {
    if s == [] then [] else (if s[0] == SharpS then "SS" else [UpperChar(s[0])]) + JavaUpper(s[1..])
  }

  /** Without `ß`, this upper-casing is the length-preserving one of the model. */
  lemma {:induction false} JavaUpperWithoutSharpS(s: string)
    requires forall i :: 0 <= i < |s| ==> s[i] != SharpS
    ensures JavaUpper(s) == Upper(s)
    decreases |s|
  {
    if s != [] {
      JavaUpperWithoutSharpS(s[1..]);
      assert Upper(s) == [UpperChar(s[0])] + Upper(s[1..]);
    }
  }

  /** The loop of `refFilter` as written: the matcher runs on `toMatch`, whatever its length,
      and its indices cut `read`; a `substring` out of range throws, which is `None` here. */
  function FilterAsWritten(find: nat -> Option<Hit>, convert: string -> string, read: string, toMatch: string, from: nat): Option<string>
    requires Finder(find, toMatch) && from <= |toMatch|
    decreases |toMatch| - from
  {
    match find(from)
    case None => if from <= |read| then Some(read[from..]) else None
    case Some(h) =>
      var p, q := h.group.start, h.group.end;
      if q > |read| then None
      else
        match FilterAsWritten(find, convert, read, toMatch, q + 1)
        case None => None
        case Some(rest) => Some(read[from..p - 1] + "\"" + convert(read[p..q]) + "\"" + rest)
  }

  /** `refFilter(root, read)` as written: the selector searches `read.toUpperCase()`. */
  function RefFilterAsWritten(kind: RefKind, convert: string -> string, read: string): Option<string>
  {
    SearchFinds(kind, JavaUpper(read));
    FilterAsWritten(Search(kind, JavaUpper(read)), convert, read, JavaUpper(read), 0)
  }

  /** When the searched copy is as long as the page, the loop as written never throws and is
      the loop of the model. */
  lemma {:induction false} AsWrittenAgrees(find: nat -> Option<Hit>, convert: string -> string, read: string, toMatch: string, from: nat)
    requires |toMatch| == |read| && Finder(find, toMatch) && from <= |read|
    ensures FilterAsWritten(find, convert, read, toMatch, from) == Some(FilterFrom(find, convert, read, toMatch, from))
    decreases |read| - from
  {
    match find(from)
    case None =>
    case Some(h) =>
      AsWrittenAgrees(find, convert, read, toMatch, h.group.end + 1);
  }

  /** On a page without `ß`, `refFilter` as written is the `refFilter` of the model. */
  lemma RefFilterAsWrittenWithoutSharpS(kind: RefKind, convert: string -> string, read: string)
    requires forall i :: 0 <= i < |read| ==> read[i] != SharpS
    ensures RefFilterAsWritten(kind, convert, read) == Some(RefFilter(kind, convert, read))
  {
    JavaUpperWithoutSharpS(read);
    SearchFinds(kind, Upper(read));
    AsWrittenAgrees(Search(kind, Upper(read)), convert, read, Upper(read), 0);
  }

  /** The identity conversion. */
  function Same(href: string): string
  {
    href
  }

  /** The loop as written on a page where the search finds one link, whose closing quote lies
      inside the page, and nothing after it: the value is cut from the page at the indices
      found in the searched copy. */
  lemma AsWrittenOneLink(find: nat -> Option<Hit>, convert: string -> string, read: string, toMatch: string, h: Hit)
    requires Finder(find, toMatch) && find(0) == Some(h)
    requires find(h.group.end + 1).None? && h.group.end + 1 <= |read|
    ensures FilterAsWritten(find, convert, read, toMatch, 0)
      == Some(read[..h.group.start - 1] + "\"" + convert(read[h.group.start..h.group.end]) + "\"" + read[h.group.end + 1..])
  {
    var next := h.group.end + 1;
    assert next <= |toMatch|;
    assert FilterAsWritten(find, convert, read, toMatch, next) == Some(read[next..]);
  }

  /** Text without a lower-case letter is its own upper-casing. */
  lemma UpperFixed(s: string)
    requires forall i :: 0 <= i < |s| ==> !('a' <= s[i] <= 'z')
    ensures Upper(s) == s
  {
  }

  /** A `ß` in front of text without one upper-cases to `SS` in front of the model's upper-casing. */
  lemma SharpSFrontUpper(tail: string)
    requires forall i :: 0 <= i < |tail| ==> tail[i] != SharpS
    ensures JavaUpper([SharpS] + tail) == "SS" + Upper(tail)
  {
    assert ([SharpS] + tail)[1..] == tail;
    JavaUpperWithoutSharpS(tail);
  }

  /** `ß<A HREF="X">` upper-cases to `SS<A HREF="X">`, one character longer. */
  lemma SharpSPageUpper(read: string)
    requires read == [SharpS] + "<A HREF=\"X\">"
    ensures JavaUpper(read) == "SS" + "<A HREF=\"X\">"
  {
    var tail := "<A HREF=\"X\">";
    assert forall i :: 0 <= i < |tail| ==> tail[i] != SharpS && !('a' <= tail[i] <= 'z');
    SharpSFrontUpper(tail);
    UpperFixed(tail);
  }

  /** In the upper-cased copy the link is found at index 2 with its value at [11, 12), and
      nothing after it. */
  lemma SharpSPageSearch(t: string)
    requires t == "SS" + "<A HREF=\"X\">"
    ensures Search(Link, t)(0) == Some(Hit(2, Span(11, 12)))
    ensures Search(Link, t)(13) == None
  {
    assert t[2..4] == Tag(Link) && t[5..11] == Attribute(Link);
    assert t[4] == ' ' && t[11] == 'X' && t[12] == '"' && t[13] == '>';
    assert forall m :: 4 <= m < 5 ==> IsSpace(t[m]);
    assert forall m :: 11 <= m < 12 ==> t[m] != '>';
    assert forall m :: 12 < m < |t| ==> t[m] != '"';
    assert SelectorMatch(Link, t, 2, 11, 12);
    MatchAtComplete(Link, t, 2, 11, 12);
    assert FindFrom(Link, t, 2) == Some(Hit(2, Span(11, 12)));
    assert MatchAt(Link, t, 1).None?;
    assert FindFrom(Link, t, 1) == FindFrom(Link, t, 2);
    assert MatchAt(Link, t, 0).None?;
    assert FindFrom(Link, t, 0) == FindFrom(Link, t, 1);
    assert MatchAt(Link, t, 14).None?;
    assert FindFrom(Link, t, 14) == None;
    assert MatchAt(Link, t, 13).None?;
    assert FindFrom(Link, t, 13) == None;
  }

  /** A `ß` in front of a link: the value cut from the page is `"` instead of `X`, and the
      link `ß<A HREF="X">` comes out as `ß<A HREF=""""` even under the identity conversion. */
  lemma SharpSCorruptsLink(read: string)
    requires read == [SharpS] + "<A HREF=\"X\">"
    ensures RefFilterAsWritten(Link, Same, read) == Some([SharpS] + "<A HREF=\"\"\"\"")
  {
    var t := "SS" + "<A HREF=\"X\">";
    SharpSPageUpper(read);
    SharpSPageSearch(t);
    SearchFinds(Link, t);
    assert RefFilterAsWritten(Link, Same, read) == FilterAsWritten(Search(Link, t), Same, read, t, 0);
    AsWrittenOneLink(Search(Link, t), Same, read, t, Hit(2, Span(11, 12)));
    var pre, value, rest := read[..10], Same(read[11..12]), read[13..];
    assert pre == [SharpS] + "<A HREF=\"" && value == "\"" && rest == "";
    assert FilterAsWritten(Search(Link, t), Same, read, t, 0) == Some(pre + "\"" + value + "\"" + rest);
    assert pre + "\"" + value + "\"" + rest == [SharpS] + "<A HREF=\"\"\"\"";
  }

  /** The same page through the model's `refFilter`, whose search runs on a copy as long as
      the page: the identity conversion leaves it unchanged. */
  lemma SharpSPageKept(read: string)
    requires read == [SharpS] + "<A HREF=\"X\">"
    ensures RefFilter(Link, Same, read) == read
    ensures RefFilterAsWritten(Link, Same, read) != Some(RefFilter(Link, Same, read))
  {
    RefFilterUnchanged(Link, Same, read);
    SharpSCorruptsLink(read);
    assert read[1] == '<';
  }
}

=== FILE: extractor.dfy ===
/** The page extractor: the line-processing body of `MyJavadocFetcher.run`, lines 368-431 of
    JavaDocExternalFilter.java, over a page already split into lines, and the composition
    `getExternalDocInfo` makes of it with `correctRefs` and `fixupText` (lines 288-309). */
module Extractor {
  import opened Wrappers
  import opened Text
  import opened Patterns
  import opened References

  /** The markers of a class page: the start of the class data, and the end of its details. */
  const ClassDataStart: string := "<!-- ======== START OF CLASS DATA ======== -->"
  const ClassDataEnd: string := "SUMMARY ======== -->"
  /** The end marker of a member page: the next anchor. */
  const AnchorEnd: string := "<A NAME="

  const Html: string := "<HTML>"
  const HtmlClose: string := "</HTML>"
  const Hr: string := "<HR>"
  const P: string := "<P>"
  const Dl: string := "<DL>"
  const H2: string := "</H2>"
  const Br: string := "<BR>"
  const Dt: string := "<DT>"

  // ------------------------------------------------------------------ markers

  /** The start and end markers the page is cut at, and whether it is a class page. */
  datatype Sections = Sections(start: string, end: string, isClassDoc: bool)

  /** The start marker of the member section named `anchor`: `<A NAME="ANCHOR"`. */
  function AnchorStart(anchor: string): string
  {
    "<A NAME=\"" + Upper(anchor) + "\""
  }

  /** A URL with a `#anchor` selects the member section opened by `<A NAME="ANCHOR"`, up to
      the next anchor; any other URL selects the class data (lines 368-377). */
  function SectionsFor(surl: string): Sections
  {
    match AnchorGroup(surl)
    case None => Sections(ClassDataStart, ClassDataEnd, true)
    case Some(anchor) => Sections(AnchorStart(anchor), AnchorEnd, false)
  }

  /** For a URL on one line: with a `#`, the start marker names, upper-cased, everything after
      the first `#`, and the end marker is the next anchor; without one, the class-data
      markers are used. */
  lemma SectionsForUrl(surl: string)
    requires NoLineTerminator(surl)
    ensures var c := CharIndex(surl, '#');
      && (c < |surl| ==>
            SectionsFor(surl) == Sections(AnchorStart(surl[c + 1..]), AnchorEnd, false))
      && (c == |surl| ==> SectionsFor(surl) == Sections(ClassDataStart, ClassDataEnd, true))
  {
    AnchorGroupOneLine(surl);
  }

  // ------------------------------------------------------------------ reading up to a line

  /** The line each loop of `run` stops at. The start marker is sought in the upper-cased
      line; `<DL>`, `<HR>` and `<P>` must be the whole upper-cased line; the end marker is
      sought in the line as it stands, case and all (line 425). */
  datatype Stop = StartLine(marker: string) | DlLine | HrLine | PLine | EndLine(marker: string)

  predicate Stops(stop: Stop, line: string)
  {
    match stop
    case StartLine(m) => Contains(Upper(line), m)
    case DlLine => Upper(line) == Dl
    case HrLine => Upper(line) == Hr
    case PLine => Upper(line) == P
    case EndLine(m) => Contains(line, m)
  }

  /** Reading from line `from` on, the index of the line the loop stops at, or `|lines|` when
      `readLine` runs out first. */
  function StopAt(lines: seq<string>, from: nat, stop: Stop): (e: nat)
    requires from <= |lines|
    ensures from <= e <= |lines|
    decreases |lines| - from
  {
    if from == |lines| || Stops(stop, lines[from]) then from else StopAt(lines, from + 1, stop)
  }

  /** `e` is the first line from `from` on that stops the loop, or the end of the page when
      none does. */
  predicate FirstStop(lines: seq<string>, from: nat, stop: Stop, e: nat)
  {
    && from <= e <= |lines|
    && (e < |lines| ==> Stops(stop, lines[e]))
    && (forall i :: from <= i < e ==> !Stops(stop, lines[i]))
  }

  /** The loop stops at the first stopping line and nowhere else. */
  lemma {:induction false} StopAtIsFirst(lines: seq<string>, from: nat, stop: Stop, e: nat)
    requires from <= |lines|
    ensures FirstStop(lines, from, stop, e) <==> e == StopAt(lines, from, stop)
    decreases |lines| - from
  {
    if from < |lines| && !Stops(stop, lines[from]) {
      StopAtIsFirst(lines, from + 1, stop, e);
      if FirstStop(lines, from, stop, e) {
        assert FirstStop(lines, from + 1, stop, e);
      }
    }
  }

  /** The line after the loop: the stopping line is consumed, the end of the page is not. */
  function After(lines: seq<string>, e: nat): nat
  {
    if e < |lines| then e + 1 else e
  }

  // ------------------------------------------------------------------ the class heading

  /** The heading loop (lines 398-407): lines are copied until one holds `</H2>`; each such
      line is replaced by `</H2>`, and after the first one the other lines are skipped. */
  function HeaderOut(ls: seq<string>, skip: bool): string
    decreases |ls|
  {
    if ls == [] then ""
    else
      var heading := Contains(Upper(ls[0]), H2);
      (if heading then H2 else if skip then "" else ls[0]) + HeaderOut(ls[1..], skip || heading)
  }

  /** The number of lines holding `</H2>`, upper-cased. */
  function HeadingCount(ls: seq<string>): nat
    decreases |ls|
  {
    if ls == [] then 0 else (if Contains(Upper(ls[0]), H2) then 1 else 0) + HeadingCount(ls[1..])
  }

  /** `s` repeated n times. */
  function Repeat(s: string, n: nat): string
  {
    if n == 0 then "" else s + Repeat(s, n - 1)
  }

  /** Once skipping, only a `</H2>` for each heading line comes out. */
  lemma {:induction false} HeaderSkipping(ls: seq<string>)
    ensures HeaderOut(ls, true) == Repeat(H2, HeadingCount(ls))
    decreases |ls|
  {
    if ls != [] {
      HeaderSkipping(ls[1..]);
      var rest := HeaderOut(ls[1..], true);
      if Contains(Upper(ls[0]), H2) {
        assert HeaderOut(ls, true) == H2 + rest;
        assert HeadingCount(ls) == 1 + HeadingCount(ls[1..]);
      } else {
        assert HeaderOut(ls, true) == "" + rest;
        assert HeadingCount(ls) == HeadingCount(ls[1..]);
      }
    }
  }

  /** Before the first heading line, lines are copied as they are; the first heading line
      becomes `</H2>`; after it, skipping starts. With no heading line, all lines are copied. */
  lemma {:induction false} HeaderCopies(ls: seq<string>, h: nat)
    requires h <= |ls| && forall i :: 0 <= i < h ==> !Contains(Upper(ls[i]), H2)
    ensures h == |ls| ==> HeaderOut(ls, false) == Join(ls)
    ensures h < |ls| && Contains(Upper(ls[h]), H2) ==>
      HeaderOut(ls, false) == Join(ls[..h]) + H2 + Repeat(H2, HeadingCount(ls[h + 1..]))
    decreases h
  {
    if h == 0 {
      if h < |ls| && Contains(Upper(ls[h]), H2) {
        HeaderSkipping(ls[1..]);
        assert ls[..0] == [];
      }
    } else {
      HeaderCopies(ls[1..], h - 1);
      assert ls[1..][..h - 1] == ls[1..h];
      if h < |ls| {
        assert ls[1..][h - 1] == ls[h];
        assert ls[1..][h..] == ls[h + 1..];
      }
      assert ls[..h] == [ls[0]] + ls[1..h];
    }
  }

  // ------------------------------------------------------------------ the `<DT>` block

  /** `<DT>` stands at the start of s. */
  predicate DtAt(s: string)
  {
    |s| >= 4 && s[0] == '<' && s[1] == 'D' && s[2] == 'T' && s[3] == '>'
  }

  /** `<DT><BR>` stands at the start of s. */
  predicate DtBrAt(s: string)
  {
    DtAt(s) && |s| >= 8 && s[4] == '<' && s[5] == 'B' && s[6] == 'R' && s[7] == '>'
  }

  /** `read.replaceAll("<DT>", "<DT><BR>")` (line 418): the leftmost occurrence first, the
      scan resuming after it. */
  function ReplaceDt(s: string): string
    decreases |s|
  {
    if |s| == 0 then ""
    else if DtAt(s) then Dt + Br + ReplaceDt(s[4..])
    else [s[0]] + ReplaceDt(s[1..])
  }

  /** The inverse rewrite: each `<DT><BR>`, leftmost first, back to `<DT>`. */
  function RemoveBr(s: string): string
    decreases |s|
  {
    if |s| == 0 then ""
    else if DtBrAt(s) then Dt + RemoveBr(s[8..])
    else [s[0]] + RemoveBr(s[1..])
  }

  /** Up to the first `<DT>`, the rewrite copies the line. */
  lemma {:induction false} ReplaceDtCopies(s: string, k: nat)
    requires k <= |s| && forall i :: 0 <= i < k ==> !DtAt(s[i..])
    ensures ReplaceDt(s) == s[..k] + ReplaceDt(s[k..])
    decreases k
  {
    if k > 0 {
      assert !DtAt(s[0..]);
      assert s[1..][..k - 1] == s[1..k];
      assert s[1..][k - 1..] == s[k..];
      forall i | 0 <= i < k - 1
        ensures !DtAt(s[1..][i..])
      {
        assert s[1..][i..] == s[i + 1..];
      }
      ReplaceDtCopies(s[1..], k - 1);
      assert s[..k] == [s[0]] + s[1..k];
    }
  }

  /** The rewrite keeps the first character, and past a character other than `<` it goes on
      with the rewrite of the rest. */
  lemma ReplaceDtHead(t: string)
    requires |t| > 0
    ensures |ReplaceDt(t)| > 0 && ReplaceDt(t)[0] == t[0]
    ensures t[0] != '<' ==> ReplaceDt(t) == [t[0]] + ReplaceDt(t[1..])
  {
  }

  /** The rewrite of a line not starting with `<DT>` does not start with `<DT>` either: the
      first character is kept, and the next three cannot spell `DT>` without the line having
      started with `<DT>`. */
  lemma NoDtCreated(s: string)
    requires |s| > 0 && !DtAt(s)
    ensures !DtAt([s[0]] + ReplaceDt(s[1..]))
  {
    var t := s[1..];
    var x := [s[0]] + ReplaceDt(t);
    if s[0] == '<' && |t| > 0 {
      ReplaceDtHead(t);
      if t[0] == 'D' && |t| > 1 {
        ReplaceDtHead(t[1..]);
        assert x[2] == t[1];
        if t[1] == 'T' && |t| > 2 {
          assert t[1..][1..] == t[2..];
          ReplaceDtHead(t[2..]);
          assert x[3] == t[2];
          assert s[1..4] == t[..3];
        }
      }
    }
  }

  /** Taking the `<BR>` back out after each `<DT>` restores the line: the rewrite loses
      nothing. */
  lemma {:induction false} ReplaceDtRoundTrip(s: string)
    ensures RemoveBr(ReplaceDt(s)) == s
    decreases |s|
  {
    if |s| > 0 {
      if DtAt(s) {
        var x := Dt + Br + ReplaceDt(s[4..]);
        assert DtBrAt(x);
        assert x[8..] == ReplaceDt(s[4..]);
        ReplaceDtRoundTrip(s[4..]);
        assert s == Dt + s[4..];
      } else {
        var x := [s[0]] + ReplaceDt(s[1..]);
        NoDtCreated(s);
        assert x[1..] == ReplaceDt(s[1..]);
        ReplaceDtRoundTrip(s[1..]);
        assert s == [s[0]] + s[1..];
      }
    }
  }

  /** Every `<DT>` in s is followed by `<BR>`. */
  predicate BrAfterEveryDt(s: string)
  {
    forall i :: 0 <= i < |s| ==> (DtAt(s[i..]) ==> DtBrAt(s[i..]))
  }

  /** Putting `<DT><BR>` in front keeps every `<DT>` followed by `<BR>`: the `<BR>` neither
      starts nor completes a `<DT>`. */
  lemma BrAfterEveryDtInserted(rest: string)
    requires BrAfterEveryDt(rest)
    ensures BrAfterEveryDt(Dt + Br + rest)
  {
    var r := Dt + Br + rest;
    forall i | 0 <= i < |r|
      ensures DtAt(r[i..]) ==> DtBrAt(r[i..])
    {
      if i >= 8 {
        assert r[i..] == rest[i - 8..];
      } else if i == 4 {
        assert r[i + 1] == 'B';
      } else if i > 0 {
        assert r[i] != '<';
      }
    }
  }

  /** A character in front that does not start a `<DT>` keeps every `<DT>` followed by `<BR>`. */
  lemma BrAfterEveryDtCons(c: char, rest: string)
    requires BrAfterEveryDt(rest) && !DtAt([c] + rest)
    ensures BrAfterEveryDt([c] + rest)
  {
    var r := [c] + rest;
    forall i | 0 <= i < |r|
      ensures DtAt(r[i..]) ==> DtBrAt(r[i..])
    {
      if i > 0 {
        assert r[i..] == rest[i - 1..];
      } else {
        assert r[i..] == r;
      }
    }
  }

  /** Every `<DT>` of the rewritten line is followed by `<BR>`: the inserted `<BR>` neither
      starts nor completes a `<DT>`, and the rewrite creates no `<DT>` of its own. */
  lemma {:induction false} ReplaceDtBrAfterDt(s: string)
    ensures BrAfterEveryDt(ReplaceDt(s))
    decreases |s|
  {
    if |s| > 0 {
      if DtAt(s) {
        ReplaceDtBrAfterDt(s[4..]);
        BrAfterEveryDtInserted(ReplaceDt(s[4..]));
      } else {
        ReplaceDtBrAfterDt(s[1..]);
        NoDtCreated(s);
        BrAfterEveryDtCons(s[0], ReplaceDt(s[1..]));
      }
    }
  }

  /** A line without `<DT>` is left as it is. */
  lemma ReplaceDtWithoutDt(s: string)
    requires forall i :: 0 <= i < |s| ==> !DtAt(s[i..])
    ensures ReplaceDt(s) == s
  {
    ReplaceDtCopies(s, |s|);
  }

  /** The `<DT>` loop (lines 417-419): each line rewritten, in order. */
  function DtBlock(ls: seq<string>): string
    decreases |ls|
  {
    if ls == [] then "" else ReplaceDt(ls[0]) + DtBlock(ls[1..])
  }

  // ------------------------------------------------------------------ the trailing lines

  predicate HasHr(line: string)
  {
    Contains(Upper(line), Hr)
  }

  /** The lines the trailing loop keeps (lines 425-429): those without `<HR>`, in any case. */
  function DropHr(ls: seq<string>): seq<string>
    decreases |ls|
  {
    if ls == [] then [] else (if HasHr(ls[0]) then [] else [ls[0]]) + DropHr(ls[1..])
  }

  /** Dropping works line by line: over a concatenation, and on one line, which is kept
      exactly when it has no `<HR>`. Together these fix `DropHr` on every input. */
  lemma {:induction false} DropHrLineByLine(a: seq<string>, b: seq<string>)
    ensures DropHr(a + b) == DropHr(a) + DropHr(b)
    ensures |a| == 1 ==> DropHr(a) == (if HasHr(a[0]) then [] else a)
    decreases |a|
  {
    if a == [] {
      assert a + b == b;
    } else {
      var head := if HasHr(a[0]) then [] else [a[0]];
      assert (a + b)[0] == a[0];
      assert (a + b)[1..] == a[1..] + b;
      assert DropHr(a + b) == head + DropHr(a[1..] + b);
      assert DropHr(a) == head + DropHr(a[1..]);
      DropHrLineByLine(a[1..], b);
      if |a| == 1 {
        assert a[1..] == [];
      }
    }
  }

  /** No kept line has `<HR>`, and every line without one is kept. */
  lemma {:induction false} DropHrKeeps(ls: seq<string>)
    ensures forall i :: 0 <= i < |DropHr(ls)| ==> !HasHr(DropHr(ls)[i])
    ensures |DropHr(ls)| <= |ls|
    ensures (forall i :: 0 <= i < |ls| ==> !HasHr(ls[i])) <==> DropHr(ls) == ls
    decreases |ls|
  {
    if ls != [] {
      DropHrKeeps(ls[1..]);
      if HasHr(ls[0]) {
        assert |DropHr(ls)| < |ls|;
      } else {
        assert DropHr(ls) == [ls[0]] + DropHr(ls[1..]);
        assert ls == [ls[0]] + ls[1..];
        if DropHr(ls) == ls {
          assert DropHr(ls[1..]) == ls[1..];
        }
      }
    }
  }

  // ------------------------------------------------------------------ the whole run

  /** The lines from `from` up to the end marker, those with `<HR>` dropped. */
  function Trail(sec: Sections, lines: seq<string>, from: nat): string
    requires from <= |lines|
  {
    var e := StopAt(lines, from, EndLine(sec.end));
    Join(DropHr(lines[from..e]))
  }

  /** What follows the start line: for a class page the heading, `<DL>`, the `<DT>` block,
      then the class details read before it, and `<P>`; for every page the trailing lines. */
  function Body(sec: Sections, lines: seq<string>, from: nat): string
    requires from <= |lines|
  {
    if sec.isClassDoc then
      var e1 := StopAt(lines, from, DlLine);
      var n1 := After(lines, e1);
      var e2 := StopAt(lines, n1, HrLine);
      var n2 := After(lines, e2);
      var e3 := StopAt(lines, n2, PLine);
      var n3 := After(lines, e3);
      HeaderOut(lines[from..e1], false) + Dl + DtBlock(lines[n2..e3]) + Join(lines[n1..e2]) + P
        + Trail(sec, lines, n3)
    else Trail(sec, lines, from)
  }

  /** `MyJavadocFetcher.run` on a page it could read (lines 368-431): the collected data, or
      nothing when no line holds the start marker (lines 391-394). */
  function Extract(surl: string, lines: seq<string>): string
  {
    var sec := SectionsFor(surl);
    var s := StopAt(lines, 0, StartLine(sec.start));
    if s == |lines| then "" else Html + lines[s] + Body(sec, lines, s + 1) + HtmlClose
  }

  /** The data is empty exactly when no line, upper-cased, holds the start marker. */
  lemma ExtractEmpty(surl: string, lines: seq<string>)
    ensures Extract(surl, lines) == "" <==>
      forall i :: 0 <= i < |lines| ==> !Contains(Upper(lines[i]), SectionsFor(surl).start)
  {
    var s := StopAt(lines, 0, StartLine(SectionsFor(surl).start));
    StopAtIsFirst(lines, 0, StartLine(SectionsFor(surl).start), s);
    if s < |lines| {
      assert Extract(surl, lines)[0] == '<';
    }
  }

  /** Otherwise the data starts with `<HTML>` and the first line holding the start marker,
      and ends with `</HTML>`. */
  lemma ExtractFrame(surl: string, lines: seq<string>, s: nat)
    requires s < |lines| && FirstStop(lines, 0, StartLine(SectionsFor(surl).start), s)
    ensures var out := Extract(surl, lines);
      && |out| >= |Html| + |lines[s]| + |HtmlClose|
      && out[..|Html| + |lines[s]|] == Html + lines[s]
      && out[|out| - |HtmlClose|..] == HtmlClose
  {
    StopAtIsFirst(lines, 0, StartLine(SectionsFor(surl).start), s);
    var out := Extract(surl, lines);
    var body := Body(SectionsFor(surl), lines, s + 1);
    assert out == (Html + lines[s]) + body + HtmlClose;
  }

  /** A member page: after the start line come the following lines up to the first one that
      holds the end marker as written (not upper-cased), less those with `<HR>`. */
  lemma MemberPageLayout(surl: string, lines: seq<string>, s: nat, e: nat)
    requires !SectionsFor(surl).isClassDoc
    requires s < |lines| && FirstStop(lines, 0, StartLine(SectionsFor(surl).start), s)
    requires FirstStop(lines, s + 1, EndLine(SectionsFor(surl).end), e)
    ensures Extract(surl, lines) == Html + lines[s] + Join(DropHr(lines[s + 1..e])) + HtmlClose
  {
    StopAtIsFirst(lines, 0, StartLine(SectionsFor(surl).start), s);
    StopAtIsFirst(lines, s + 1, EndLine(SectionsFor(surl).end), e);
  }

  /** The class-page body, once the lines each loop stops at are known. */
  lemma ClassBody(sec: Sections, lines: seq<string>, from: nat, e1: nat, e2: nat, e3: nat, e4: nat)
    requires sec.isClassDoc && from <= |lines|
    requires e1 == StopAt(lines, from, DlLine)
    requires e2 == StopAt(lines, After(lines, e1), HrLine)
    requires e3 == StopAt(lines, After(lines, e2), PLine)
    requires e4 == StopAt(lines, After(lines, e3), EndLine(sec.end))
    ensures Body(sec, lines, from)
      == HeaderOut(lines[from..e1], false) + Dl + DtBlock(lines[After(lines, e2)..e3])
        + Join(lines[After(lines, e1)..e2]) + P + Join(DropHr(lines[After(lines, e3)..e4]))
  {
  }

  /** A class page: the heading up to the `<DL>` line, `<DL>`, the `<DT>` block between the
      `<HR>` line and the `<P>` line with `<BR>` after each `<DT>`, then the class details
      that stood before it, between the `<DL>` and `<HR>` lines, then `<P>`, then the
      trailing lines up to the end marker less those with `<HR>`. */
  lemma ClassPageLayout(surl: string, lines: seq<string>, s: nat, e1: nat, e2: nat, e3: nat, e4: nat)
    requires SectionsFor(surl).isClassDoc
    requires s < |lines| && FirstStop(lines, 0, StartLine(ClassDataStart), s)
    requires FirstStop(lines, s + 1, DlLine, e1)
    requires FirstStop(lines, After(lines, e1), HrLine, e2)
    requires FirstStop(lines, After(lines, e2), PLine, e3)
    requires FirstStop(lines, After(lines, e3), EndLine(ClassDataEnd), e4)
    ensures Extract(surl, lines)
      == Html + lines[s] + (HeaderOut(lines[s + 1..e1], false) + Dl
        + DtBlock(lines[After(lines, e2)..e3]) + Join(lines[After(lines, e1)..e2]) + P
        + Join(DropHr(lines[After(lines, e3)..e4]))) + HtmlClose
  {
    var sec := SectionsFor(surl);
    assert sec == Sections(ClassDataStart, ClassDataEnd, true);
    StopAtIsFirst(lines, 0, StartLine(ClassDataStart), s);
    StopAtIsFirst(lines, s + 1, DlLine, e1);
    StopAtIsFirst(lines, After(lines, e1), HrLine, e2);
    StopAtIsFirst(lines, After(lines, e2), PLine, e3);
    StopAtIsFirst(lines, After(lines, e3), EndLine(ClassDataEnd), e4);
    ClassBody(sec, lines, s + 1, e1, e2, e3, e4);
  }

  // ------------------------------------------------------------------ getExternalDocInfo

  /** `getExternalDocInfo` (lines 288-309) once the fetch is done: no URL gives `null`; a page
      for which no reader is returned (`None`) gives empty data; the data is rewritten against the
      URL without its `#…` tail and then passed to `fixupText`. */
  function ExternalDocInfo(env: Oracles, surl: Option<string>, page: Option<seq<string>>): (r: Option<string>)
    ensures surl.None? <==> r.None?
  {
    match surl
    case None => None
    case Some(u) =>
      var data := match page case None => "" case Some(lines) => Extract(u, lines);
      Some(env.fixupText(CorrectRefs(env, StripAnchor(u), data)))
  }

  /** With a URL, a page for which no reader is returned, or one that lacks the start marker,
      yields `fixupText` of the empty text: there is nothing for `correctRefs` to rewrite. */
  lemma ExternalDocInfoNothingFound(env: Oracles, surl: string, page: Option<seq<string>>)
    requires page.Some? ==>
      forall i :: 0 <= i < |page.value| ==> !Contains(Upper(page.value[i]), SectionsFor(surl).start)
    ensures ExternalDocInfo(env, Some(surl), page) == Some(env.fixupText(""))
  {
    if page.Some? {
      ExtractEmpty(surl, page.value);
    }
    CorrectRefsNoMatch(env, StripAnchor(surl), "");
  }

  /** With a URL on one line and a page holding the start marker, the data found, framed by
      `<HTML>` and the first marker line in front and `</HTML>` at the end, is rewritten
      against the URL cut at its first `#` and then passed to `fixupText`. */
  lemma ExternalDocInfoFound(env: Oracles, surl: string, lines: seq<string>, s: nat)
    requires NoLineTerminator(surl)
    requires s < |lines| && FirstStop(lines, 0, StartLine(SectionsFor(surl).start), s)
    ensures var data := Extract(surl, lines);
      && |data| >= |Html| + |lines[s]| + |HtmlClose|
      && data[..|Html| + |lines[s]|] == Html + lines[s]
      && data[|data| - |HtmlClose|..] == HtmlClose
      && ExternalDocInfo(env, Some(surl), Some(lines))
         == Some(env.fixupText(CorrectRefs(env, surl[..CharIndex(surl, '#')], data)))
  {
    ExtractFrame(surl, lines, s);
  }
}

=== FILE: patterns.dfy ===
/**
 * Hand-written matchers for the fixed regular expressions of JavaDocExternalFilter
 * (its `ourHTMLsuffix`, `ourParentFolderprefix`, `ourAnchorsuffix`, `ourHTMLFilesuffix`
 * and `ourAnnihilator` patterns), each together with the `replaceAll` or `find` the
 * filter uses it with, and the two shrink-until-stable loops built on them.
 *
 * The matchers follow java.util.regex exactly where it matters: `$` without MULTILINE
 * also matches just before a final line terminator, `.` does not match a line
 * terminator, greedy quantifiers take the longest run that still lets the rest match,
 * and `find` reports the leftmost match and resumes after its end.
 */
module Patterns {
  import opened Wrappers
  import opened Text

  // ------------------------------------------------------------------ line ends and `$`

  /** The characters Java's regex engine treats as line terminators (no UNIX_LINES flag). */
  predicate IsLineTerminator(c: char)
  {
    c == '\n' || c == '\r' || c == '\U{85}' || c == '\U{2028}' || c == '\U{2029}'
  }

  /** Java's `$` without MULTILINE holds at index k: at the end of the input, or just before
      one final line terminator (`\r\n` counting as one, never between its two halves). */
  predicate DollarAt(s: string, k: int)
  {
    || k == |s|
    || (0 <= k && k == |s| - 1 && IsLineTerminator(s[k]) && !(s[k] == '\n' && k > 0 && s[k - 1] == '\r'))
    || (0 <= k && k == |s| - 2 && s[k] == '\r' && s[k + 1] == '\n')
  }

  /** The first index at or after i holding a line terminator, or |s|. */
  function LineEnd(s: string, i: nat): (e: nat)
    requires i <= |s|
    ensures i <= e <= |s|
    ensures forall m :: i <= m < e ==> !IsLineTerminator(s[m])
    ensures e < |s| ==> IsLineTerminator(s[e])
    decreases |s| - i
  {
    if i == |s| || IsLineTerminator(s[i]) then i else LineEnd(s, i + 1)
  }

  /** The first index of c in s, or |s|. */
  function CharIndex(s: string, c: char): (r: nat)
    ensures r <= |s|
    ensures r < |s| ==> s[r] == c
    ensures forall m :: 0 <= m < r ==> s[m] != c
  {
    if |s| == 0 || s[0] == c then 0 else 1 + CharIndex(s[1..], c)
  }

  predicate NoLineTerminator(s: string)
  {
    forall m :: 0 <= m < |s| ==> !IsLineTerminator(s[m])
  }

  // ------------------------------------------------------------------ `#(.*)$`

  /** `#(.*)$` matches s[i..k]; its group 1 is s[i+1..k]. */
  predicate AnchorMatchAt(s: string, i: int, k: int)
  {
    && 0 <= i < k <= |s|
    && s[i] == '#'
    && (forall m :: i < m < k ==> !IsLineTerminator(s[m]))
    && DollarAt(s, k)
  }

  /** `.*` cannot cross a line terminator and `$` away from the very end needs one, so a
      match that starts at i can only end at the first line terminator after it. */
  lemma AnchorMatchEnd(s: string, i: int, k: int)
    requires AnchorMatchAt(s, i, k)
    ensures k == LineEnd(s, i + 1)
  {
    var e := LineEnd(s, i + 1);
  }

  /** `Matcher.find` for `#(.*)$` from index `from`: the leftmost match, if any. */
  function AnchorFrom(s: string, from: nat): (r: Option<Span>)
    requires from <= |s|
    ensures r.Some? ==> from <= r.value.start && AnchorMatchAt(s, r.value.start, r.value.end)
    ensures forall i, k :: from <= i && (r.None? || i < r.value.start) ==> !AnchorMatchAt(s, i, k)
    decreases |s| - from
  {
    if from == |s| then None
    else if s[from] == '#' && DollarAt(s, LineEnd(s, from + 1)) then Some(Span(from, LineEnd(s, from + 1)))
    else
      assert forall k :: !AnchorMatchAt(s, from, k) by {
        forall k | AnchorMatchAt(s, from, k) {
          AnchorMatchEnd(s, from, k);
        }
      }
      AnchorFrom(s, from + 1)
  }

  /** `ourAnchorsuffix.matcher(s).replaceAll("")`, with the scan resumed at `from`. */
  function StripAnchorFrom(s: string, from: nat): string
    requires from <= |s|
    decreases |s| - from
  {
    match AnchorFrom(s, from)
    case None => s[from..]
    case Some(m) => s[from..m.start] + StripAnchorFrom(s, m.end)
  }

  /** Once a match has ended where `$` holds, only a line terminator is left: no `#` follows. */
  lemma NoAnchorAfterDollar(s: string, k: nat)
    requires k <= |s| && DollarAt(s, k)
    ensures AnchorFrom(s, k).None?
  {
    assert forall i :: k <= i < |s| ==> s[i] != '#';
  }

  /** Removing the `#…` tail of a URL or reference (lines 47, 127, 258, 305). */
  function StripAnchor(s: string): (r: string)
    ensures |r| <= |s|
    ensures (forall i, k :: !AnchorMatchAt(s, i, k)) ==> r == s
    ensures AnchorFrom(s, 0).Some? ==>
      r == s[..AnchorFrom(s, 0).value.start] + s[AnchorFrom(s, 0).value.end..]
    ensures NoLineTerminator(s) ==> r == s[..CharIndex(s, '#')]
  {
    var r := StripAnchorFrom(s, 0);
    match AnchorFrom(s, 0)
    case None =>
      assert r == s;
      assert NoLineTerminator(s) ==> r == s[..CharIndex(s, '#')] by {
        if NoLineTerminator(s) {
          AnchorFromWithoutLineTerminators(s);
        }
      }
      r
    case Some(m) =>
      NoAnchorAfterDollar(s, m.end);
      assert StripAnchorFrom(s, m.end) == s[m.end..];
      assert NoLineTerminator(s) ==> r == s[..CharIndex(s, '#')] by {
        if NoLineTerminator(s) {
          AnchorFromWithoutLineTerminators(s);
        }
      }
      r
  }

  /** On a single line, the leftmost match of `#(.*)$` runs from the first `#` to the end. */
  lemma AnchorFromWithoutLineTerminators(s: string)
    requires NoLineTerminator(s)
    ensures CharIndex(s, '#') < |s| ==> AnchorFrom(s, 0) == Some(Span(CharIndex(s, '#'), |s|))
    ensures CharIndex(s, '#') == |s| ==> AnchorFrom(s, 0).None?
  {
    var c := CharIndex(s, '#');
    var r := AnchorFrom(s, 0);
    if c < |s| {
      assert AnchorMatchAt(s, c, |s|);
      assert r.Some?;
      AnchorMatchEnd(s, r.value.start, r.value.end);
      assert LineEnd(s, r.value.start + 1) == |s|;
    }
  }

  /** Group 1 of the first match of `#(.*)$`: the anchor a URL names, if any. */
  function AnchorGroup(s: string): Option<string>
  {
    match AnchorFrom(s, 0)
    case None => None
    case Some(m) => Some(s[m.start + 1..m.end])
  }

  /** On a single line, the anchor is everything after the first `#`, and there is none
      without a `#`. */
  lemma AnchorGroupOneLine(s: string)
    requires NoLineTerminator(s)
    ensures var c := CharIndex(s, '#');
      && (c < |s| ==> AnchorGroup(s) == Some(s[c + 1..]))
      && (c == |s| ==> AnchorGroup(s).None?)
  {
    AnchorFromWithoutLineTerminators(s);
    var c := CharIndex(s, '#');
    if c < |s| {
      assert s[c + 1..|s|] == s[c + 1..];
    }
  }

  // ------------------------------------------------------------------ `/[^/]*[.][hH][tT][mM][lL]?$`

  /** s[d..] starts with `.htm`, in any letter case. */
  predicate HtmAt(s: string, d: int)
  {
    && 0 <= d && d + 4 <= |s|
    && s[d] == '.'
    && UpperChar(s[d + 1]) == 'H' && UpperChar(s[d + 2]) == 'T' && UpperChar(s[d + 3]) == 'M'
  }

  /** s[j..k] is a `/`, a run free of `/`, then `.htm` or `.html` in any case, with `$` at k. */
  predicate FileSegmentAt(s: string, j: int, k: int)
  {
    && 0 <= j < k <= |s|
    && s[j] == '/'
    && (forall m :: j < m < k ==> s[m] != '/')
    && ((j < k - 4 && HtmAt(s, k - 4)) || (j < k - 5 && HtmAt(s, k - 5) && UpperChar(s[k - 1]) == 'L'))
    && DollarAt(s, k)
  }

  /** A string holds at most one file segment: it ends the string (but for a final line
      terminator), and it starts at the last `/` before that. */
  lemma FileSegmentUnique(s: string, j1: int, k1: int, j2: int, k2: int)
    requires FileSegmentAt(s, j1, k1) && FileSegmentAt(s, j2, k2)
    ensures j1 == j2 && k1 == k2
  {
  }

  /** The end of the file segment starting at j, if there is one. */
  function FileSegmentEnd(s: string, j: nat): (r: Option<nat>)
    ensures r.Some? ==> FileSegmentAt(s, j, r.value)
    ensures r.None? ==> forall k :: !FileSegmentAt(s, j, k)
  {
    if FileSegmentAt(s, j, |s|) then Some(|s|)
    else if FileSegmentAt(s, j, |s| - 1) then Some(|s| - 1)
    else if FileSegmentAt(s, j, |s| - 2) then Some(|s| - 2)
    else None
  }

  /** `Matcher.find` for the file-segment pattern from index `from`. */
  function FileSegmentFrom(s: string, from: nat): (r: Option<Span>)
    requires from <= |s|
    ensures r.Some? ==> from <= r.value.start && FileSegmentAt(s, r.value.start, r.value.end)
    ensures forall j, k :: from <= j && (r.None? || j < r.value.start) ==> !FileSegmentAt(s, j, k)
    decreases |s| - from
  {
    if from == |s| then None
    else match FileSegmentEnd(s, from)
      case Some(k) => Some(Span(from, k))
      case None => FileSegmentFrom(s, from + 1)
  }

  /** `ourHTMLFilesuffix.matcher(s).replaceAll("/")`, with the scan resumed at `from`. */
  function NakedRootFrom(s: string, from: nat): string
    requires from <= |s|
    decreases |s| - from
  {
    match FileSegmentFrom(s, from)
    case None => s[from..]
    case Some(m) => s[from..m.start] + "/" + NakedRootFrom(s, m.end)
  }

  /** `nakedRoot` (lines 104, 119): the root with a final `/name.htm` or `/name.html` segment
      (any letter case) replaced by `/`; a root without such a segment is left as it is. */
  function NakedRoot(root: string): (r: string)
    ensures forall j, k :: FileSegmentAt(root, j, k) ==> r == root[..j] + "/" + root[k..]
    ensures (forall j, k :: !FileSegmentAt(root, j, k)) ==> r == root
  {
    var r := NakedRootFrom(root, 0);
    match FileSegmentFrom(root, 0)
    case None => r
    case Some(m) =>
      var rest := FileSegmentFrom(root, m.end);
      assert rest.None? by {
        if rest.Some? {
          FileSegmentUnique(root, m.start, m.end, rest.value.start, rest.value.end);
        }
      }
      assert NakedRootFrom(root, m.end) == root[m.end..];
      assert forall j, k :: FileSegmentAt(root, j, k) ==> j == m.start && k == m.end by {
        forall j, k | FileSegmentAt(root, j, k) {
          FileSegmentUnique(root, m.start, m.end, j, k);
        }
      }
      r
  }

  // ------------------------------------------------------------------ `[.][hH][tT][mM][lL]?`

  /** The end of the `.htm` match at d: the greedy `[lL]?` takes an `l` when one follows. */
  function HtmlExtEnd(s: string, d: nat): (e: nat)
    requires HtmAt(s, d)
    ensures d + 4 <= e <= |s|
  {
    if d + 5 <= |s| && UpperChar(s[d + 4]) == 'L' then d + 5 else d + 4
  }

  /** `ourHTMLsuffix.matcher(s).replaceAll("")`, with the scan resumed at `from`: every
      `.htm`/`.html` (any case) is removed, left to right, wherever it occurs. */
  function StripHtmlExtFrom(s: string, from: nat): string
    requires from <= |s|
    decreases |s| - from
  {
    if from == |s| then ""
    else if HtmAt(s, from) then StripHtmlExtFrom(s, HtmlExtEnd(s, from))
    else [s[from]] + StripHtmlExtFrom(s, from + 1)
  }

  lemma {:induction false} StripHtmlExtFromSpec(s: string, from: nat)
    requires from <= |s|
    ensures |StripHtmlExtFrom(s, from)| <= |s| - from
    ensures |StripHtmlExtFrom(s, from)| == |s| - from <==> forall i :: from <= i ==> !HtmAt(s, i)
    ensures (forall i :: from <= i ==> !HtmAt(s, i)) ==> StripHtmlExtFrom(s, from) == s[from..]
    decreases |s| - from
  {
    if from == |s| {
    } else if HtmAt(s, from) {
      StripHtmlExtFromSpec(s, HtmlExtEnd(s, from));
    } else {
      StripHtmlExtFromSpec(s, from + 1);
      assert [s[from]] + s[from + 1..] == s[from..];
    }
  }

  /** The `.htm(l)` stripping of line 121: it never lengthens, and it changes the
      reference exactly when some `.htm` (any case) occurs in it. */
  function StripHtmlExt(s: string): (r: string)
    ensures |r| <= |s|
    ensures r == s <==> forall i :: !HtmAt(s, i)
  {
    StripHtmlExtFromSpec(s, 0);
    StripHtmlExtFrom(s, 0)
  }

  /** `cuts` are the matches `replaceAll` removes from `from` on: each is the leftmost `.htm`
      at or after the end of the one before, taken with its greedy `l`, and none is left after
      the last. */
  predicate HtmMatches(s: string, cuts: seq<Span>, from: nat)
    decreases |cuts|
  {
    && from <= |s|
    && if cuts == [] then forall i :: from <= i < |s| ==> !HtmAt(s, i)
       else
         && from <= cuts[0].start
         && HtmAt(s, cuts[0].start)
         && cuts[0].end == HtmlExtEnd(s, cuts[0].start)
         && (forall i :: from <= i < cuts[0].start ==> !HtmAt(s, i))
         && HtmMatches(s, cuts[1..], cuts[0].end)
  }

  /** s from `from` on with the matches cut out: the gaps between them, in order. */
  function StrippedBy(s: string, cuts: seq<Span>, from: nat): string
    requires HtmMatches(s, cuts, from)
    decreases |cuts|
  {
    if cuts == [] then s[from..] else s[from..cuts[0].start] + StrippedBy(s, cuts[1..], cuts[0].end)
  }

  /** Up to the first `.htm`, the stripping copies the text. */
  lemma {:induction false} StripHtmlExtCopies(s: string, from: nat, k: nat)
    requires from <= k <= |s| && forall i :: from <= i < k ==> !HtmAt(s, i)
    ensures StripHtmlExtFrom(s, from) == s[from..k] + StripHtmlExtFrom(s, k)
    decreases k - from
  {
    if from < k {
      var rest := StripHtmlExtFrom(s, k);
      assert !HtmAt(s, from);
      assert StripHtmlExtFrom(s, from) == [s[from]] + StripHtmlExtFrom(s, from + 1);
      StripHtmlExtCopies(s, from + 1, k);
      assert s[from..k] == [s[from]] + s[from + 1..k];
      assert [s[from]] + (s[from + 1..k] + rest) == ([s[from]] + s[from + 1..k]) + rest;
    }
  }

  /** The stripping removes exactly the matches and keeps the gaps between them. */
  lemma {:induction false} StripHtmlExtFromRemoves(s: string, cuts: seq<Span>, from: nat)
    requires HtmMatches(s, cuts, from)
    ensures StripHtmlExtFrom(s, from) == StrippedBy(s, cuts, from)
    decreases |cuts|
  {
    if cuts == [] {
      StripHtmlExtFromSpec(s, from);
    } else {
      var c := cuts[0];
      StripHtmlExtCopies(s, from, c.start);
      StripHtmlExtFromRemoves(s, cuts[1..], c.end);
    }
  }

  /** The matches of `replaceAll` exist from any index on. */
  lemma {:induction false} HtmMatchesExist(s: string, from: nat)
    requires from <= |s|
    ensures exists cuts :: HtmMatches(s, cuts, from)
    decreases |s| - from
  {
    if from == |s| {
      assert HtmMatches(s, [], from);
    } else if HtmAt(s, from) {
      var e := HtmlExtEnd(s, from);
      HtmMatchesExist(s, e);
      var rest :| HtmMatches(s, rest, e);
      var cuts := [Span(from, e)] + rest;
      assert cuts[1..] == rest;
      assert HtmMatches(s, cuts, from);
    } else {
      HtmMatchesExist(s, from + 1);
      var cuts :| HtmMatches(s, cuts, from + 1);
      assert HtmMatches(s, cuts, from);
    }
  }

  /** `.htm`/`.html` stripping, stated by what it removes: for the matches of `replaceAll`
      (which `HtmMatchesExist` shows always exist), the result is the text between them. */
  lemma StripHtmlExtRemoves(s: string, cuts: seq<Span>)
    requires HtmMatches(s, cuts, 0)
    ensures StripHtmlExt(s) == StrippedBy(s, cuts, 0)
  {
    StripHtmlExtFromRemoves(s, cuts, 0);
  }

  // ------------------------------------------------------------------ `^[.][.]/`

  predicate StartsWithParent(s: string)
  {
    |s| >= 3 && s[..3] == "../"
  }

  /** `ourParentFolderprefix.matcher(s).replaceAll("")`: `^` only holds at index 0, so one
      replaceAll removes at most one leading `../`. */
  function StripParent(s: string): string
  {
    if StartsWithParent(s) then s[3..] else s
  }

  /** The do-while loop of line 124: strip again as long as the length keeps shrinking. */
  function PeelParents(s: string): string
    decreases |s|
  {
    var t := StripParent(s);
    if |s| > |t| then PeelParents(t) else t
  }

  /** n copies of `../`. */
  function Parents(n: nat): string
  {
    if n == 0 then "" else "../" + Parents(n - 1)
  }

  /** The number of `../` that s starts with. */
  function ParentCount(s: string): nat
    decreases |s|
  {
    if StartsWithParent(s) then 1 + ParentCount(s[3..]) else 0
  }

  /** The loop ends with no `../` left in front, and it removed exactly the leading run of
      `../`: nothing else in the string changes. */
  lemma {:induction false} PeelParentsSpec(s: string)
    ensures !StartsWithParent(PeelParents(s))
    ensures s == Parents(ParentCount(s)) + PeelParents(s)
    decreases |s|
  {
    if StartsWithParent(s) {
      var t := s[3..];
      assert PeelParents(s) == PeelParents(t);
      PeelParentsSpec(t);
      assert ParentCount(s) == 1 + ParentCount(t);
      assert Parents(ParentCount(s)) == "../" + Parents(ParentCount(t));
      assert s == "../" + t;
    } else {
      assert PeelParents(s) == s;
    }
  }

  // ------------------------------------------------------------------ `/[^/^.]*/[.][.]/`

  /** A character allowed in the `seg` of `/seg/../`. */
  predicate SegmentChar(c: char)
  {
    c != '/' && c != '^' && c != '.'
  }

  /** s[i..j+4] is `/seg/../` with `seg` = s[i+1..j] free of `/`, `^` and `.`. */
  predicate CollapsibleAt(s: string, i: int, j: int)
  {
    && 0 <= i < j && j + 4 <= |s|
    && s[i] == '/'
    && s[j..j + 4] == "/../"
    && (forall m :: i < m < j ==> SegmentChar(s[m]))
  }

  /** s still contains some `/seg/../`. */
  ghost predicate HasCollapsible(s: string)
  {
    exists i, j :: CollapsibleAt(s, i, j)
  }

  /** The first index at or after i whose character cannot be part of a `seg`, or |s|. */
  function SegmentEnd(s: string, i: nat): (e: nat)
    requires i <= |s|
    ensures i <= e <= |s|
    ensures forall m :: i <= m < e ==> SegmentChar(s[m])
    ensures e < |s| ==> !SegmentChar(s[e])
    decreases |s| - i
  {
    if i == |s| || !SegmentChar(s[i]) then i else SegmentEnd(s, i + 1)
  }

  /** `[^/^.]*` is greedy and `/` is not a `seg` character: a match that starts at i has its
      `/../` right where the run of `seg` characters after i stops. */
  lemma CollapsibleEnd(s: string, i: int, j: int)
    requires CollapsibleAt(s, i, j)
    ensures j == SegmentEnd(s, i + 1)
  {
    assert s[j] == '/' by {
      assert s[j..j + 4][0] == '/';
    }
  }

  /** The end of the `/seg/../` match starting at i, if any. */
  function CollapseAt(s: string, i: nat): (r: Option<nat>)
    requires i < |s|
    ensures r.Some? ==> i + 5 <= r.value <= |s|
  {
    if s[i] != '/' then None
    else
      var j := SegmentEnd(s, i + 1);
      if j + 4 <= |s| && s[j..j + 4] == "/../" then Some(j + 4) else None
  }

  /** `CollapseAt` finds the match at i exactly: what it reports is one, and when it reports
      none there is none. */
  lemma CollapseAtSpec(s: string, i: nat)
    requires i < |s|
    ensures CollapseAt(s, i).Some? ==> CollapsibleAt(s, i, CollapseAt(s, i).value - 4)
    ensures CollapseAt(s, i).None? ==> forall j :: !CollapsibleAt(s, i, j)
  {
    if s[i] == '/' {
      var j := SegmentEnd(s, i + 1);
      forall j' | CollapsibleAt(s, i, j')
        ensures j' == j
      {
        CollapsibleEnd(s, i, j');
      }
    }
  }

  /** `ourAnnihilator.matcher(s).replaceAll("/")`, with the scan resumed at i. */
  function CollapsePass(s: string, i: nat): string
    requires i <= |s|
    decreases |s| - i
  {
    if i == |s| then ""
    else match CollapseAt(s, i)
      case Some(e) => "/" + CollapsePass(s, e)
      case None => [s[i]] + CollapsePass(s, i + 1)
  }

  /** One pass never lengthens; it keeps the length exactly when nothing from i on is
      collapsible, and then it changes nothing. */
  lemma {:induction false} CollapsePassSpec(s: string, i: nat)
    requires i <= |s|
    ensures |CollapsePass(s, i)| <= |s| - i
    ensures |CollapsePass(s, i)| == |s| - i <==> forall m, j :: i <= m ==> !CollapsibleAt(s, m, j)
    ensures (forall m, j :: i <= m ==> !CollapsibleAt(s, m, j)) ==> CollapsePass(s, i) == s[i..]
    decreases |s| - i
  {
    if i == |s| {
    } else {
      CollapseAtSpec(s, i);
      match CollapseAt(s, i)
      case Some(e) =>
        CollapsePassSpec(s, e);
      case None =>
        CollapsePassSpec(s, i + 1);
        assert [s[i]] + s[i + 1..] == s[i..];
    }
  }

  /** `cuts` are the matches one `replaceAll` collapses from `from` on: each is the leftmost
      `/seg/../` at or after the end of the one before, as the span from its first `/` to
      just past its last, and none is left after the last. */
  ghost predicate AnnihilatorMatches(s: string, cuts: seq<Span>, from: nat)
    decreases |cuts|
  {
    && from <= |s|
    && if cuts == [] then forall m, j :: from <= m ==> !CollapsibleAt(s, m, j)
       else
         && from <= cuts[0].start
         && CollapsibleAt(s, cuts[0].start, cuts[0].end - 4)
         && (forall m, j :: from <= m < cuts[0].start ==> !CollapsibleAt(s, m, j))
         && AnnihilatorMatches(s, cuts[1..], cuts[0].end)
  }

  /** s from `from` on with each match replaced by `/`: the gaps between them, joined by `/`. */
  function CollapsedBy(s: string, cuts: seq<Span>, from: nat): string
    requires AnnihilatorMatches(s, cuts, from)
    decreases |cuts|
  {
    if cuts == [] then s[from..] else s[from..cuts[0].start] + "/" + CollapsedBy(s, cuts[1..], cuts[0].end)
  }

  /** No `/seg/../` starts in [from, k), as the pass checks index by index. */
  predicate NoCollapseBetween(s: string, from: nat, k: nat)
    requires from <= k <= |s|
    decreases k - from
  {
    from == k || (CollapseAt(s, from).None? && NoCollapseBetween(s, from + 1, k))
  }

  /** The index-by-index check agrees with "no match starts in [from, k)". */
  lemma {:induction false} NoCollapseBetweenOf(s: string, from: nat, k: nat)
    requires from <= k <= |s| && forall m, j :: from <= m < k ==> !CollapsibleAt(s, m, j)
    ensures NoCollapseBetween(s, from, k)
    decreases k - from
  {
    if from < k {
      CollapseAtSpec(s, from);
      assert forall j :: !CollapsibleAt(s, from, j);
      NoCollapseBetweenOf(s, from + 1, k);
    }
  }

  /** Up to the first `/seg/../`, a pass copies the path. */
  lemma {:induction false} CollapsePassCopies(s: string, from: nat, k: nat)
    requires from <= k <= |s| && NoCollapseBetween(s, from, k)
    ensures CollapsePass(s, from) == s[from..k] + CollapsePass(s, k)
    decreases k - from
  {
    if from < k {
      var rest := CollapsePass(s, k);
      assert CollapsePass(s, from) == [s[from]] + CollapsePass(s, from + 1);
      CollapsePassCopies(s, from + 1, k);
      assert s[from..k] == [s[from]] + s[from + 1..k];
      assert [s[from]] + (s[from + 1..k] + rest) == ([s[from]] + s[from + 1..k]) + rest;
    }
  }

  /** At a `/seg/../`, a pass writes `/` and resumes just past the match. */
  lemma CollapsePassAtMatch(s: string, i: nat, j: nat)
    requires CollapsibleAt(s, i, j)
    ensures CollapsePass(s, i) == "/" + CollapsePass(s, j + 4)
  {
    CollapsibleEnd(s, i, j);
    assert s[j..j + 4] == "/../";
    assert CollapseAt(s, i) == Some(j + 4);
  }

  /** A pass from `from` copies up to the first match, writes `/` for it and goes on past it. */
  lemma CollapsePassStep(s: string, from: nat, i: nat, j: nat)
    requires from <= i && CollapsibleAt(s, i, j) && NoCollapseBetween(s, from, i)
    ensures CollapsePass(s, from) == s[from..i] + "/" + CollapsePass(s, j + 4)
  {
    var gap, rest := s[from..i], CollapsePass(s, j + 4);
    CollapsePassCopies(s, from, i);
    CollapsePassAtMatch(s, i, j);
    assert gap + ("/" + rest) == gap + "/" + rest;
  }

  /** A pass replaces exactly the matches by `/` and keeps the gaps between them. */
  lemma {:induction false} CollapsePassRemoves(s: string, cuts: seq<Span>, from: nat)
    requires AnnihilatorMatches(s, cuts, from)
    ensures CollapsePass(s, from) == CollapsedBy(s, cuts, from)
    decreases |cuts|
  {
    if cuts == [] {
      CollapsePassSpec(s, from);
    } else {
      var c := cuts[0];
      NoCollapseBetweenOf(s, from, c.start);
      CollapsePassStep(s, from, c.start, c.end - 4);
      CollapsePassRemoves(s, cuts[1..], c.end);
    }
  }

  /** The matches of one `replaceAll` exist from any index on. */
  lemma {:induction false} AnnihilatorMatchesExist(s: string, from: nat)
    requires from <= |s|
    ensures exists cuts :: AnnihilatorMatches(s, cuts, from)
    decreases |s| - from
  {
    if from == |s| {
      assert forall m, j :: from <= m ==> !CollapsibleAt(s, m, j);
      assert AnnihilatorMatches(s, [], from);
    } else {
      CollapseAtSpec(s, from);
      match CollapseAt(s, from)
      case Some(e) =>
        AnnihilatorMatchesExist(s, e);
        var rest :| AnnihilatorMatches(s, rest, e);
        var cuts := [Span(from, e)] + rest;
        assert cuts[1..] == rest;
        assert AnnihilatorMatches(s, cuts, from);
      case None =>
        AnnihilatorMatchesExist(s, from + 1);
        var cuts :| AnnihilatorMatches(s, cuts, from + 1);
        assert AnnihilatorMatches(s, cuts, from);
    }
  }

  /** `doAnnihilate` (lines 144-153): collapse passes until one no longer shortens the path. */
  function Annihilate(path: string): string
    decreases |path|
  {
    var t := CollapsePass(path, 0);
    if |path| > |t| then Annihilate(t) else t
  }

  /** `doAnnihilate` never lengthens its input, leaves no `/seg/../` behind, and leaves a
      path that has none exactly as it is (and only such a path). */
  lemma {:induction false} AnnihilateSpec(path: string)
    ensures |Annihilate(path)| <= |path|
    ensures !HasCollapsible(Annihilate(path))
    ensures Annihilate(path) == path <==> !HasCollapsible(path)
    decreases |path|
  {
    var t := CollapsePass(path, 0);
    CollapsePassSpec(path, 0);
    if |path| > |t| {
      AnnihilateSpec(t);
      assert HasCollapsible(path) by {
        var m, j :| 0 <= m && CollapsibleAt(path, m, j);
      }
    } else {
      assert path[0..] == path;
      assert forall m, j :: !CollapsibleAt(path, m, j) by {
        assert forall m, j :: 0 <= m ==> !CollapsibleAt(path, m, j);
      }
    }
  }

  /** `doAnnihilate` by its passes: with no match the path comes back as it is; otherwise each
      match becomes `/`, the path gets shorter, and `doAnnihilate` goes on with the result. */
  lemma AnnihilateCollapses(path: string, cuts: seq<Span>)
    requires AnnihilatorMatches(path, cuts, 0)
    ensures cuts == [] ==> Annihilate(path) == path
    ensures cuts != [] ==>
      |CollapsedBy(path, cuts, 0)| < |path| && Annihilate(path) == Annihilate(CollapsedBy(path, cuts, 0))
  {
    CollapsePassRemoves(path, cuts, 0);
    CollapsePassSpec(path, 0);
    if cuts == [] {
      assert path[0..] == path;
    } else {
      assert CollapsibleAt(path, cuts[0].start, cuts[0].end - 4);
    }
  }

  /** `doAnnihilate` is idempotent. */
  lemma AnnihilateIdempotent(path: string)
    ensures Annihilate(Annihilate(path)) == Annihilate(path)
  {
    AnnihilateSpec(path);
    AnnihilateSpec(Annihilate(path));
  }

  /** `s.replaceAll("/", ".")`. */
  function SlashesToDots(s: string): (r: string)
    ensures |r| == |s|
    ensures forall i :: 0 <= i < |r| ==> r[i] != '/'
    ensures forall i :: 0 <= i < |s| && s[i] != '/' ==> r[i] == s[i]
    ensures forall i :: 0 <= i < |s| && s[i] == '/' ==> r[i] == '.'
  {
    seq(|s|, i requires 0 <= i < |s| => if s[i] == '/' then '.' else s[i])
  }
}

=== FILE: references.dfy ===
/**
 * The reference rewriter of JavaDocExternalFilter: `RefConvertor.refFilter`, the link and
 * image `convertReference` rules, `correctRefs` and `filterInternalDocInfo`.
 *
 * `refFilter` searches an upper-cased copy of the page for the selector and splices the
 * captured value, taken from the original text at the same indices, through the
 * conversion rule. The model states that as: the page is its gaps interleaved with the
 * quoted captured values, and the result is the same gaps interleaved with the quoted
 * converted values.
 */
module References {
  import opened Wrappers
  import opened Text
  import opened Patterns

  const DocElementProtocol: string := "doc_element://"
  const PsiElementProtocol: string := "psi_element://"

  /** What the filter asks the IDE and cannot decide by itself. */
  datatype Oracles = Oracles(
    isAbsoluteUrl: string -> bool,  // BrowserUtil.isAbsoluteURL
    classExists: string -> bool,    // myManager.findClass(name, allScope(project)) != null
    fixupText: string -> string)    // JavaDocUtil.fixupText

  /** The two rewriters: `<A HREF="…">` links and `<IMG SRC="…">` images. */
  datatype RefKind = Link | Image

  // ------------------------------------------------------------------ the selectors

  /** `[ \t\n\r\f]` */
  predicate IsSpace(c: char)
  {
    c == ' ' || c == '\t' || c == '\n' || c == '\r' || c == '\U{C}'
  }

  /** The tag that opens the selector (`ourHREFselector`, `ourIMGselector`). */
  function Tag(kind: RefKind): (t: string)
    ensures |t| >= 2
  {
    match kind
    case Link => "<A"
    case Image => "<IMG"
  }

  /** The attribute after the spaces, up to and including its opening quote. */
  function Attribute(kind: RefKind): (a: string)
    ensures |a| >= 5 && !IsSpace(a[0]) && a[|a| - 1] == '"'
  {
    match kind
    case Link => "HREF=\""
    case Image => "SRC=\""
  }

  /** The selector `<A[ \t\n\r\f]+HREF="([^>]*)"` (or its IMG/SRC twin) matches t at i with
      group 1 = t[p..q]: the tag, at least one space, the attribute, then the longest run
      free of `>` that is followed by a `"` (greedy `[^>]*` backs off to the last `"`
      before the first `>`). */
  predicate SelectorMatch(kind: RefKind, t: string, i: int, p: int, q: int)
  {
    var a := i + |Tag(kind)|;
    var k := p - |Attribute(kind)|;
    && 0 <= i && a < k && p <= q < |t|
    && t[i..a] == Tag(kind)
    && (forall m :: a <= m < k ==> IsSpace(t[m]))
    && t[k..p] == Attribute(kind)
    && t[q] == '"'
    && (forall m :: p <= m < q ==> t[m] != '>')
    && (forall m :: q < m < |t| && t[m] == '"' ==> exists j :: q < j < m && t[j] == '>')
  }

  /** The first index at or after i that is not a space, or |t|. */
  function SpaceEnd(t: string, i: nat): (e: nat)
    requires i <= |t|
    ensures i <= e <= |t| && (e < |t| ==> !IsSpace(t[e]))
    decreases |t| - i
  {
    if i == |t| || !IsSpace(t[i]) then i else SpaceEnd(t, i + 1)
  }

  /** Everything `SpaceEnd` skips is a space. */
  lemma {:induction false} SpaceEndSpaces(t: string, i: nat)
    requires i <= |t|
    ensures forall m :: i <= m < SpaceEnd(t, i) ==> IsSpace(t[m])
    decreases |t| - i
  {
    if i < |t| && IsSpace(t[i]) {
      SpaceEndSpaces(t, i + 1);
    }
  }

  /** The first `>` at or after i, or |t|. */
  function GtFrom(t: string, i: nat): (e: nat)
    requires i <= |t|
    ensures i <= e <= |t| && (e < |t| ==> t[e] == '>')
    decreases |t| - i
  {
    if i == |t| || t[i] == '>' then i else GtFrom(t, i + 1)
  }

  /** There is no `>` before the one `GtFrom` finds. */
  lemma {:induction false} GtFromFirst(t: string, i: nat)
    requires i <= |t|
    ensures forall m :: i <= m < GtFrom(t, i) ==> t[m] != '>'
    decreases |t| - i
  {
    if i < |t| && t[i] != '>' {
      GtFromFirst(t, i + 1);
    }
  }

  /** The last `"` in t[p..e], if any. */
  function LastQuote(t: string, p: nat, e: nat): (r: Option<nat>)
    requires p <= e <= |t|
    ensures r.Some? ==> p <= r.value < e && t[r.value] == '"'
    decreases e - p
  {
    if e == p then None
    else if t[e - 1] == '"' then Some(e - 1)
    else LastQuote(t, p, e - 1)
  }

  /** There is no `"` after the one `LastQuote` finds, and none at all when it finds none. */
  lemma {:induction false} LastQuoteLast(t: string, p: nat, e: nat)
    requires p <= e <= |t|
    ensures forall m :: p <= m < e && (LastQuote(t, p, e).None? || LastQuote(t, p, e).value < m) ==> t[m] != '"'
    decreases e - p
  {
    if e > p && t[e - 1] != '"' {
      LastQuoteLast(t, p, e - 1);
    }
  }

  /** A selector match at i fixes its group: the spaces run as far as they go, and the
      value ends at the last `"` before the first `>`. */
  lemma SelectorMatchDetermined(kind: RefKind, t: string, i: nat, p: int, q: int)
    requires SelectorMatch(kind, t, i, p, q)
    ensures p == SpaceEnd(t, i + |Tag(kind)|) + |Attribute(kind)|
    ensures LastQuote(t, p, GtFrom(t, p)) == Some(q)
  {
    var k := p - |Attribute(kind)|;
    assert t[k] == Attribute(kind)[0] by {
      assert t[k..p][0] == t[k];
    }
    SpaceEndSpaces(t, i + |Tag(kind)|);
    var e := GtFrom(t, p);
    GtFromFirst(t, p);
    LastQuoteLast(t, p, e);
    assert q < e;
  }

  /** `w[j..]` stands in t at `i + j`, compared character by character. */
  predicate HasAt(t: string, i: nat, w: string, j: nat)
    requires j <= |w|
    decreases |w| - j
  {
    j == |w| || (i + j < |t| && t[i + j] == w[j] && HasAt(t, i, w, j + 1))
  }

  /** The character comparison agrees with slice equality. */
  lemma {:induction false} HasAtSlice(t: string, i: nat, w: string, j: nat)
    requires j <= |w| && i + |w| <= |t|
    ensures HasAt(t, i, w, j) <==> t[i + j..i + |w|] == w[j..]
    decreases |w| - j
  {
    if j < |w| {
      HasAtSlice(t, i, w, j + 1);
      assert t[i + j..i + |w|] == [t[i + j]] + t[i + j + 1..i + |w|];
      assert w[j..] == [w[j]] + w[j + 1..];
    }
  }

  /** `HasAt` from the start is slice equality. */
  lemma HasAtWhole(t: string, i: nat, w: string)
    requires i + |w| <= |t|
    ensures HasAt(t, i, w, 0) <==> t[i..i + |w|] == w
  {
    HasAtSlice(t, i, w, 0);
    assert w[0..] == w;
  }

  /** A character-by-character match puts each character of `w[j..]` in place. */
  lemma {:induction false} HasAtChar(t: string, i: nat, w: string, j: nat, m: nat)
    requires j <= m < |w| && HasAt(t, i, w, j)
    ensures i + m < |t| && t[i + m] == w[m]
    decreases m - j
  {
    if j < m {
      HasAtChar(t, i, w, j + 1, m);
    }
  }

  /** Group 1 of the selector match at i, if the selector matches there: the spaces after
      the tag as far as they go, the attribute, then up to the last `"` before the first `>`.
      The group lies after the tag, between two `"`. */
  function MatchAt(kind: RefKind, t: string, i: nat): (r: Option<Span>)
    ensures r.Some? ==>
      && i + 1 < r.value.start <= r.value.end < |t|
      && t[r.value.start - 1] == '"' && t[r.value.end] == '"'
  {
    var a := i + |Tag(kind)|;
    if a <= |t| && HasAt(t, i, Tag(kind), 0) then
      var k := SpaceEnd(t, a);
      var p := k + |Attribute(kind)|;
      if a < k && p <= |t| && HasAt(t, k, Attribute(kind), 0) then
        match LastQuote(t, p, GtFrom(t, p))
        case Some(q) =>
          HasAtChar(t, k, Attribute(kind), 0, |Attribute(kind)| - 1);
          Some(Span(p, q))
        case None => None
      else None
    else None
  }

  /** `MatchAt` only reports selector matches. */
  lemma MatchAtSound(kind: RefKind, t: string, i: nat)
    ensures MatchAt(kind, t, i).Some? ==>
      SelectorMatch(kind, t, i, MatchAt(kind, t, i).value.start, MatchAt(kind, t, i).value.end)
  {
    if MatchAt(kind, t, i).Some? {
      var q := MatchAt(kind, t, i).value.end;
      var k := SpaceEnd(t, i + |Tag(kind)|);
      var p := k + |Attribute(kind)|;
      assert MatchAt(kind, t, i).value.start == p;
      SelectorMatchOfSteps(kind, t, i, k, p, q);
    }
  }

  /** The steps `MatchAt` takes, when they all succeed, make a selector match. */
  lemma SelectorMatchOfSteps(kind: RefKind, t: string, i: nat, k: nat, p: nat, q: nat)
    requires i + |Tag(kind)| <= |t| && HasAt(t, i, Tag(kind), 0)
    requires k == SpaceEnd(t, i + |Tag(kind)|) && i + |Tag(kind)| < k
    requires p == k + |Attribute(kind)| <= |t| && HasAt(t, k, Attribute(kind), 0)
    requires LastQuote(t, p, GtFrom(t, p)) == Some(q)
    ensures SelectorMatch(kind, t, i, p, q)
  {
    var a := i + |Tag(kind)|;
    HasAtWhole(t, i, Tag(kind));
    HasAtWhole(t, k, Attribute(kind));
    GreedyValue(t, p, q);
    SpaceEndSpaces(t, a);
    GtFromFirst(t, p);
  }

  /** The last `"` before the first `>` satisfies the greedy clause of the selector. */
  lemma GreedyValue(t: string, p: nat, q: nat)
    requires p <= |t| && LastQuote(t, p, GtFrom(t, p)) == Some(q)
    ensures forall m :: q < m < |t| && t[m] == '"' ==> exists j :: q < j < m && t[j] == '>'
  {
    var e := GtFrom(t, p);
    LastQuoteLast(t, p, e);
    forall m | q < m < |t| && t[m] == '"'
      ensures exists j :: q < j < m && t[j] == '>'
    {
      assert e <= m;
      assert q < e < m && t[e] == '>';
    }
  }

  /** `MatchAt` finds every selector match: the one at i is unique, and it is the one computed. */
  lemma MatchAtComplete(kind: RefKind, t: string, i: nat, p: nat, q: nat)
    requires SelectorMatch(kind, t, i, p, q)
    ensures MatchAt(kind, t, i) == Some(Span(p, q))
  {
    SelectorMatchDetermined(kind, t, i, p, q);
    HasAtWhole(t, i, Tag(kind));
    HasAtWhole(t, p - |Attribute(kind)|, Attribute(kind));
  }

  /** A match found by `Matcher.find`: where it starts and its group 1. */
  datatype Hit = Hit(at: nat, group: Span)

  /** `Matcher.find` from index `from`: the leftmost selector match. */
  function FindFrom(kind: RefKind, t: string, from: nat): (r: Option<Hit>)
    requires from <= |t|
    ensures r.Some? ==> from <= r.value.at <= |t| && MatchAt(kind, t, r.value.at) == Some(r.value.group)
    decreases |t| - from
  {
    match MatchAt(kind, t, from)
    case Some(g) => Some(Hit(from, g))
    case None => if from == |t| then None else FindFrom(kind, t, from + 1)
  }

  /** The match `find` reports is the leftmost one: the selector matches nowhere between
      `from` and it, nor anywhere after `from` when nothing is reported. */
  lemma {:induction false} FindFromLeftmost(kind: RefKind, t: string, from: nat)
    requires from <= |t|
    ensures forall i :: from <= i <= |t| && (FindFrom(kind, t, from).None? || i < FindFrom(kind, t, from).value.at) ==>
      MatchAt(kind, t, i).None?
    decreases |t| - from
  {
    if MatchAt(kind, t, from).None? && from < |t| {
      FindFromLeftmost(kind, t, from + 1);
    }
  }

  /** The searcher `mySelector.matcher(toMatch)` stands for: `find` from any index. */
  function Search(kind: RefKind, t: string): nat -> Option<Hit>
  {
    (i: nat) => if i <= |t| then FindFrom(kind, t, i) else None
  }

  // ------------------------------------------------------------------ refFilter

  /** The span is a value between two `"` of `s`. */
  predicate QuotedAt(s: string, g: Span)
  {
    0 < g.start <= g.end < |s| && s[g.start - 1] == '"' && s[g.end] == '"'
  }

  /** What the loop of `refFilter` relies on in its matcher: a search from i reports a group
      after i that is a value between two `"` of the text searched. */
  predicate Finder(find: nat -> Option<Hit>, t: string)
  {
    forall i: nat :: i <= |t| && find(i).Some? ==> i < find(i).value.group.start && QuotedAt(t, find(i).value.group)
  }

  /** The selector's search is such a matcher. */
  lemma SearchFinds(kind: RefKind, t: string)
    ensures Finder(Search(kind, t), t)
  {
    forall i: nat | i <= |t| && Search(kind, t)(i).Some?
      ensures i < Search(kind, t)(i).value.group.start && QuotedAt(t, Search(kind, t)(i).value.group)
    {
      var h := FindFrom(kind, t, i).value;
      assert MatchAt(kind, t, h.at) == Some(h.group);
    }
  }

  /** `spans` lie in order within `[from, n)`, each one past the index before it. */
  predicate Ordered(spans: seq<Span>, from: nat, n: nat)
    decreases |spans|
  {
    if spans == [] then from <= n
    else from < spans[0].start <= spans[0].end < n && Ordered(spans[1..], spans[0].end + 1, n)
  }

  /** Each span of `spans` is a value between two `"` of `s`. */
  predicate Quoted(s: string, spans: seq<Span>)
    decreases |spans|
  {
    spans == [] || (QuotedAt(s, spans[0]) && Quoted(s, spans[1..]))
  }

  /** The successive groups `while (matcher.find())` visits, the search resuming after each
      match, one past its group: spans of t, in order. */
  function Spans(find: nat -> Option<Hit>, t: string, from: nat): (r: seq<Span>)
    requires Finder(find, t) && from <= |t|
    ensures Ordered(r, from, |t|)
    decreases |t| - from
  {
    match find(from)
    case None => []
    case Some(h) => [h.group] + Spans(find, t, h.group.end + 1)
  }

  /** A sequence built as `[x] + xs` has head x and tail xs. */
  lemma HeadTail<T>(s: seq<T>, x: T, xs: seq<T>)
    requires s == [x] + xs
    ensures s != [] && s[0] == x && s[1..] == xs
  {
    assert ([x] + xs)[1..] == xs;
  }

  /** The search visits the group of its first hit, then goes on after it. */
  lemma SpansCons(find: nat -> Option<Hit>, t: string, from: nat, h: Hit)
    requires Finder(find, t) && from <= |t| && find(from) == Some(h)
    ensures Spans(find, t, from) != [] && Spans(find, t, from)[0] == h.group
    ensures Spans(find, t, from)[1..] == Spans(find, t, h.group.end + 1)
  {
    HeadTail(Spans(find, t, from), h.group, Spans(find, t, h.group.end + 1));
  }

  /** The groups the search visits are quoted values of the text searched. */
  lemma {:induction false} SpansQuoted(find: nat -> Option<Hit>, t: string, from: nat)
    requires Finder(find, t) && from <= |t|
    ensures Quoted(t, Spans(find, t, from))
    decreases |t| - from
  {
    match find(from)
    case None =>
    case Some(h) =>
      SpansCons(find, t, from, h);
      SpansQuoted(find, t, h.group.end + 1);
  }

  /** Values quoted in the upper-cased text are quoted in the original text: upper-casing
      leaves `"` where it was. */
  lemma {:induction false} UpperQuoted(read: string, spans: seq<Span>)
    requires Quoted(Upper(read), spans)
    ensures Quoted(read, spans)
    decreases |spans|
  {
    if spans != [] {
      UpperKeepsNonLetter(read, spans[0].start - 1);
      UpperKeepsNonLetter(read, spans[0].end);
      UpperQuoted(read, spans[1..]);
    }
  }

  /** The text around the spans: up to the first opening quote, between each closing quote
      and the next opening one, and after the last closing quote. */
  function Gaps(read: string, spans: seq<Span>, from: nat): (g: seq<string>)
    requires Ordered(spans, from, |read|)
    ensures |g| == |spans| + 1
    decreases |spans|
  {
    if spans == [] then [read[from..]]
    else [read[from..spans[0].start - 1]] + Gaps(read, spans[1..], spans[0].end + 1)
  }

  /** The values the spans delimit, as they stand in `read`. */
  function Values(read: string, spans: seq<Span>, from: nat): (v: seq<string>)
    requires Ordered(spans, from, |read|)
    ensures |v| == |spans|
    decreases |spans|
  {
    if spans == [] then []
    else [read[spans[0].start..spans[0].end]] + Values(read, spans[1..], spans[0].end + 1)
  }

  /** The gaps and values of spans: the gap and value the first span delimits, then those of
      the other spans. */
  lemma GapsValuesCons(read: string, spans: seq<Span>, from: nat)
    requires spans != [] && Ordered(spans, from, |read|)
    ensures Ordered(spans[1..], spans[0].end + 1, |read|)
    ensures Gaps(read, spans, from)
      == [read[from..spans[0].start - 1]] + Gaps(read, spans[1..], spans[0].end + 1)
    ensures Values(read, spans, from)
      == [read[spans[0].start..spans[0].end]] + Values(read, spans[1..], spans[0].end + 1)
  {
  }

  /** The gaps with the values between them, each value in `"`. */
  function Splice(gaps: seq<string>, vals: seq<string>): string
    requires |gaps| == |vals| + 1
    decreases |vals|
  {
    if vals == [] then gaps[0]
    else gaps[0] + "\"" + vals[0] + "\"" + Splice(gaps[1..], vals[1..])
  }

  /** Splicing a first gap and value in front of a splice. */
  lemma SpliceCons(gap: string, val: string, gaps: seq<string>, vals: seq<string>)
    requires |gaps| == |vals| + 1
    ensures Splice([gap] + gaps, [val] + vals) == gap + "\"" + val + "\"" + Splice(gaps, vals)
  {
    assert ([gap] + gaps)[1..] == gaps;
    assert ([val] + vals)[1..] == vals;
  }

  /** Every value converted, in order. */
  function ConvertAll(convert: string -> string, vals: seq<string>): (r: seq<string>)
    ensures |r| == |vals|
    ensures forall i :: 0 <= i < |vals| ==> r[i] == convert(vals[i])
  {
    seq(|vals|, i requires 0 <= i < |vals| => convert(vals[i]))
  }

  /** Converting a value in front of others. */
  lemma ConvertAllCons(convert: string -> string, val: string, vals: seq<string>)
    ensures ConvertAll(convert, [val] + vals) == [convert(val)] + ConvertAll(convert, vals)
  {
  }

  /** A text is its part before a quoted value, the value in quotes, and the rest. */
  lemma CutAtQuotes(read: string, from: nat, p: nat, q: nat)
    requires from < p <= q < |read| && read[p - 1] == '"' && read[q] == '"'
    ensures read[from..] == read[from..p - 1] + "\"" + read[p..q] + "\"" + read[q + 1..]
  {
    assert read[from..] == read[from..p - 1] + [read[p - 1]] + read[p..q] + [read[q]] + read[q + 1..];
  }

  /** A quoted value and the text before it, spliced in front of a splice of the rest of
      the text, give the text from the gap on. */
  lemma SpliceStep(read: string, from: nat, p: nat, q: nat, gaps: seq<string>, vals: seq<string>)
    requires from < p <= q < |read| && read[p - 1] == '"' && read[q] == '"'
    requires |gaps| == |vals| + 1 && Splice(gaps, vals) == read[q + 1..]
    ensures Splice([read[from..p - 1]] + gaps, [read[p..q]] + vals) == read[from..]
  {
    SpliceCons(read[from..p - 1], read[p..q], gaps, vals);
    CutAtQuotes(read, from, p, q);
  }

  /** Cutting the text at quoted values and splicing the same values back gives the text
      again. */
  lemma {:induction false} Reassemble(read: string, spans: seq<Span>, from: nat)
    requires Ordered(spans, from, |read|) && Quoted(read, spans)
    ensures Splice(Gaps(read, spans, from), Values(read, spans, from)) == read[from..]
    decreases |spans|
  {
    if spans != [] {
      var p, q := spans[0].start, spans[0].end;
      Reassemble(read, spans[1..], q + 1);
      SpliceStep(read, from, p, q, Gaps(read, spans[1..], q + 1), Values(read, spans[1..], q + 1));
    }
  }

  /** The loop of `refFilter` (lines 81-92) with `prev` = `from`: the matcher runs on
      `toMatch`, the cuts are taken from `read` at the same indices, and `convert` stands
      for the rewriter's `convertReference` with the root fixed. */
  function FilterFrom(find: nat -> Option<Hit>, convert: string -> string, read: string, toMatch: string, from: nat): string
    requires |toMatch| == |read| && Finder(find, toMatch) && from <= |read|
    decreases |read| - from
  {
    match find(from)
    case None => read[from..]
    case Some(h) =>
      var p, q := h.group.start, h.group.end;
      read[from..p - 1] + "\"" + convert(read[p..q]) + "\""
        + FilterFrom(find, convert, read, toMatch, q + 1)
  }

  /** `RefConvertor.refFilter(root, read)` (lines 75-95) of the rewriter with the given
      selector: the search runs on the upper-cased page. */
  function RefFilter(kind: RefKind, convert: string -> string, read: string): string
  {
    SearchFinds(kind, Upper(read));
    FilterFrom(Search(kind, Upper(read)), convert, read, Upper(read), 0)
  }

  /** The splice of the gaps and converted values of the spans the search visits from
      `from`. */
  function SpliceFrom(find: nat -> Option<Hit>, convert: string -> string, read: string, toMatch: string, from: nat): string
    requires |toMatch| == |read| && Finder(find, toMatch) && from <= |read|
  {
    var spans := Spans(find, toMatch, from);
    Splice(Gaps(read, spans, from), ConvertAll(convert, Values(read, spans, from)))
  }

  /** One round of the loop: the text before the first value, the converted value in quotes,
      then the rest. */
  lemma FilterFromCons(find: nat -> Option<Hit>, convert: string -> string, read: string, toMatch: string, from: nat, h: Hit)
    requires |toMatch| == |read| && Finder(find, toMatch) && from <= |read| && find(from) == Some(h)
    ensures FilterFrom(find, convert, read, toMatch, from)
      == read[from..h.group.start - 1] + "\"" + convert(read[h.group.start..h.group.end]) + "\""
        + FilterFrom(find, convert, read, toMatch, h.group.end + 1)
  {
  }

  /** Splicing over spans: the gap before the first value, that value converted in quotes,
      then the splice over the other spans. */
  lemma SpliceSpansCons(convert: string -> string, read: string, spans: seq<Span>, from: nat)
    requires spans != [] && Ordered(spans, from, |read|)
    ensures Ordered(spans[1..], spans[0].end + 1, |read|)
    ensures var p, q := spans[0].start, spans[0].end;
      Splice(Gaps(read, spans, from), ConvertAll(convert, Values(read, spans, from)))
        == read[from..p - 1] + "\"" + convert(read[p..q]) + "\""
          + Splice(Gaps(read, spans[1..], q + 1), ConvertAll(convert, Values(read, spans[1..], q + 1)))
  {
    var p, q := spans[0].start, spans[0].end;
    GapsValuesCons(read, spans, from);
    var vals := Values(read, spans[1..], q + 1);
    ConvertAllCons(convert, read[p..q], vals);
    SpliceCons(read[from..p - 1], convert(read[p..q]), Gaps(read, spans[1..], q + 1), ConvertAll(convert, vals));
  }

  /** The splice over the spans the search visits takes the same round. */
  lemma SpliceFromCons(find: nat -> Option<Hit>, convert: string -> string, read: string, toMatch: string, from: nat, h: Hit)
    requires |toMatch| == |read| && Finder(find, toMatch) && from <= |read| && find(from) == Some(h)
    ensures SpliceFrom(find, convert, read, toMatch, from)
      == read[from..h.group.start - 1] + "\"" + convert(read[h.group.start..h.group.end]) + "\""
        + SpliceFrom(find, convert, read, toMatch, h.group.end + 1)
  {
    SpansCons(find, toMatch, from, h);
    SpliceSpansCons(convert, read, Spans(find, toMatch, from), from);
  }

  /** The loop of `refFilter` from `from` is the splice of the gaps with the converted
      values. */
  lemma {:induction false} FilterIsSplice(find: nat -> Option<Hit>, convert: string -> string, read: string, toMatch: string, from: nat)
    requires |toMatch| == |read| && Finder(find, toMatch) && from <= |read|
    ensures FilterFrom(find, convert, read, toMatch, from) == SpliceFrom(find, convert, read, toMatch, from)
    decreases |read| - from
  {
    match find(from)
    case None =>
    case Some(h) =>
      FilterFromCons(find, convert, read, toMatch, from, h);
      SpliceFromCons(find, convert, read, toMatch, from, h);
      FilterIsSplice(find, convert, read, toMatch, h.group.end + 1);
  }

  /** The groups of the selector's matches in `t`, in the order `refFilter` visits them. */
  function MatchedSpans(kind: RefKind, t: string): (r: seq<Span>)
    ensures Ordered(r, 0, |t|)
  {
    SearchFinds(kind, t);
    Spans(Search(kind, t), t, 0)
  }

  /** `refFilter` copies everything outside the matched attribute values verbatim and in
      order, including the tail after the last match, and puts in place of each value,
      between `"`, its conversion: the page and the result are the same gaps spliced with
      the original values and with the converted values respectively. */
  lemma RefFilterSplicesConvertedValues(kind: RefKind, convert: string -> string, read: string)
    ensures var spans := MatchedSpans(kind, Upper(read));
      && Quoted(read, spans)
      && read == Splice(Gaps(read, spans, 0), Values(read, spans, 0))
      && RefFilter(kind, convert, read)
         == Splice(Gaps(read, spans, 0), ConvertAll(convert, Values(read, spans, 0)))
  {
    var t := Upper(read);
    SearchFinds(kind, t);
    var spans := MatchedSpans(kind, t);
    SpansQuoted(Search(kind, t), t, 0);
    UpperQuoted(read, spans);
    FilterIsSplice(Search(kind, t), convert, read, t, 0);
    Reassemble(read, spans, 0);
  }

  /** `refFilter` returns its input unchanged when every matched value converts to itself,
      in particular when nothing matches. */
  lemma RefFilterUnchanged(kind: RefKind, convert: string -> string, read: string)
    requires forall v :: v in Values(read, MatchedSpans(kind, Upper(read)), 0) ==> convert(v) == v
    ensures RefFilter(kind, convert, read) == read
  {
    RefFilterSplicesConvertedValues(kind, convert, read);
    var vals := Values(read, MatchedSpans(kind, Upper(read)), 0);
    assert ConvertAll(convert, vals) == vals;
  }

  // ------------------------------------------------------------------ the conversion rules

  /** The link rule's element reference (lines 121-126): `.htm(l)` removed, leading `../`
      peeled off, `/` turned into `.`. */
  function ElementRef(href: string): string
  {
    SlashesToDots(PeelParents(StripHtmlExt(href)))
  }

  /** The class name asked of the oracle (line 127): the element reference without its
      `#…` tail. */
  function ClassRef(href: string): string
  {
    StripAnchor(ElementRef(href))
  }

  /** The link rule, `convertReference` of lines 110-133. */
  function ConvertLink(env: Oracles, root: string, href: string): string
  {
    if env.isAbsoluteUrl(href) then href
    else if |href| > 0 && href[0] == '#' then DocElementProtocol + root + href
    else if env.classExists(ClassRef(href)) then PsiElementProtocol + ElementRef(href)
    else DocElementProtocol + Annihilate(NakedRoot(root) + href)
  }

  /** The image rule, `convertReference` of lines 99-105: no absolute-URL check. */
  function ConvertImage(root: string, href: string): string
  {
    if |href| > 0 && href[0] == '#' then DocElementProtocol + root + href
    else NakedRoot(root) + href
  }

  /** The rewriter of each kind with the root fixed, as `refFilter` applies it. */
  function Convertor(kind: RefKind, env: Oracles, root: string): string -> string
  {
    match kind
    case Link => (href: string) => ConvertLink(env, root, href)
    case Image => (href: string) => ConvertImage(root, href)
  }

  /** The element reference is the peeled, suffix-free reference with dots for slashes:
      it holds no `/`, and the reference it comes from, once `.htm(l)` is gone, is a run of
      `../` followed by a path that does not start with `../`. */
  lemma ElementRefSpec(href: string)
    ensures forall i :: 0 <= i < |ElementRef(href)| ==> ElementRef(href)[i] != '/'
    ensures var stripped := StripHtmlExt(href);
      && stripped == Parents(ParentCount(stripped)) + PeelParents(stripped)
      && !StartsWithParent(PeelParents(stripped))
      && ElementRef(href) == SlashesToDots(PeelParents(stripped))
  {
    PeelParentsSpec(StripHtmlExt(href));
  }

  /** The link rule case by case: an absolute URL is kept; `#fragment` becomes a document
      reference to the unstripped root; otherwise a class the oracle knows becomes a PSI
      reference whose name holds no `/` (and, on one line, a class name without `#`), and
      anything else becomes a document reference to the collapsed path of the naked root
      and the original reference, a path with no `/seg/../` left and no longer than that
      concatenation. */
  lemma LinkRule(env: Oracles, root: string, href: string)
    ensures env.isAbsoluteUrl(href) ==> ConvertLink(env, root, href) == href
    ensures !env.isAbsoluteUrl(href) && |href| > 0 && href[0] == '#' ==>
      ConvertLink(env, root, href) == DocElementProtocol + root + href
    ensures !env.isAbsoluteUrl(href) && !(|href| > 0 && href[0] == '#') && env.classExists(ClassRef(href)) ==>
      && ConvertLink(env, root, href) == PsiElementProtocol + ElementRef(href)
      && (forall i :: 0 <= i < |ElementRef(href)| ==> ElementRef(href)[i] != '/')
      && (NoLineTerminator(ElementRef(href)) ==> forall i :: 0 <= i < |ClassRef(href)| ==> ClassRef(href)[i] != '#')
    ensures !env.isAbsoluteUrl(href) && !(|href| > 0 && href[0] == '#') && !env.classExists(ClassRef(href)) ==>
      var path := ConvertLink(env, root, href)[|DocElementProtocol|..];
      && ConvertLink(env, root, href) == DocElementProtocol + path
      && path == Annihilate(NakedRoot(root) + href)
      && !HasCollapsible(path)
      && |path| <= |NakedRoot(root) + href|
  {
    ElementRefSpec(href);
    AnnihilateSpec(NakedRoot(root) + href);
  }

  /** The image rule: `#fragment` becomes a document reference to the unstripped root;
      anything else, absolute URLs included, is appended to the naked root, which is the
      root with its final `/name.htm(l)` segment cut back to `/`. */
  lemma ImageRule(root: string, href: string)
    ensures |href| > 0 && href[0] == '#' ==> ConvertImage(root, href) == DocElementProtocol + root + href
    ensures !(|href| > 0 && href[0] == '#') ==>
      && (forall j, k :: FileSegmentAt(root, j, k) ==> ConvertImage(root, href) == root[..j] + "/" + root[k..] + href)
      && ((forall j, k :: !FileSegmentAt(root, j, k)) ==> ConvertImage(root, href) == root + href)
  {
  }

  // ------------------------------------------------------------------ correctRefs and filterInternalDocInfo

  /** `correctRefs` (lines 236-244): the link rewriter, then the image rewriter on its
      output, once each (the order of `myReferenceConvertors`, lines 108-136). */
  function CorrectRefs(env: Oracles, root: string, read: string): string
  {
    var linked := RefFilter(Link, Convertor(Link, env, root), read);
    RefFilter(Image, Convertor(Image, env, root), linked)
  }

  /** `correctRefs` in full: the page is its link gaps spliced with its link values; the
      links are converted in place; then, in that output, the image values are converted in
      place, each pass leaving its gaps as they were. */
  lemma CorrectRefsSplices(env: Oracles, root: string, read: string)
    ensures var linkSpans := MatchedSpans(Link, Upper(read));
      var linkGaps := Gaps(read, linkSpans, 0);
      var linked := Splice(linkGaps, ConvertAll(Convertor(Link, env, root), Values(read, linkSpans, 0)));
      var imageSpans := MatchedSpans(Image, Upper(linked));
      && read == Splice(linkGaps, Values(read, linkSpans, 0))
      && linked == Splice(Gaps(linked, imageSpans, 0), Values(linked, imageSpans, 0))
      && CorrectRefs(env, root, read)
         == Splice(Gaps(linked, imageSpans, 0), ConvertAll(Convertor(Image, env, root), Values(linked, imageSpans, 0)))
  {
    RefFilterSplicesConvertedValues(Link, Convertor(Link, env, root), read);
    var linked := RefFilter(Link, Convertor(Link, env, root), read);
    RefFilterSplicesConvertedValues(Image, Convertor(Image, env, root), linked);
  }

  /** A page with neither a link nor an image selector match comes out of `correctRefs`
      unchanged. */
  lemma CorrectRefsNoMatch(env: Oracles, root: string, read: string)
    requires MatchedSpans(Link, Upper(read)) == []
    requires MatchedSpans(Image, Upper(read)) == []
    ensures CorrectRefs(env, root, read) == read
  {
    assert RefFilter(Link, Convertor(Link, env, root), read) == read;
  }

  /** `filterInternalDocInfo` (lines 246-261), `null` modelled as `None`. */
  function FilterInternalDocInfo(env: Oracles, text: Option<string>, surl: Option<string>): (r: Option<string>)
    ensures text.None? <==> r.None?
    ensures text.Some? && surl.None? ==> r == Some(env.fixupText(text.value))
    ensures text.Some? && surl.Some? ==>
      r == Some(CorrectRefs(env, StripAnchor(surl.value), env.fixupText(text.value)))
  {
    match text
    case None => None
    case Some(t) =>
      var fixed := env.fixupText(t);
      match surl
      case None => Some(fixed)
      case Some(u) => Some(CorrectRefs(env, StripAnchor(u), fixed))
  }

  /** The root `filterInternalDocInfo` rewrites against: the URL cut at its first `#` (for a
      URL on one line), or the whole URL when it has no `#`. */
  lemma FilterInternalDocInfoRoot(env: Oracles, text: string, surl: string)
    requires NoLineTerminator(surl)
    ensures var cut := CharIndex(surl, '#');
      && FilterInternalDocInfo(env, Some(text), Some(surl))
         == Some(CorrectRefs(env, surl[..cut], env.fixupText(text)))
      && (forall i :: 0 <= i < cut ==> surl[i] != '#')
  {
  }
}

=== FILE: text.dfy ===
/**
 * Character and string helpers shared by the reference rewriter and the page
 * extractor: Java's `toUpperCase` (on ASCII letters), `indexOf`, and the
 * concatenation of a sequence of lines.
 */
module Text {

  /** A half-open index range [start, end) of some string. */
  datatype Span = Span(start: nat, end: nat)

  /** ASCII upper-casing of one character. */
  function UpperChar(c: char): char
  {
    if 'a' <= c <= 'z' then (c as int - 32) as char else c
  }

  /** `String.toUpperCase`, restricted to ASCII letters: one character in, one character out. */
  function Upper(s: string): (u: string)
    ensures |u| == |s|
    ensures forall i :: 0 <= i < |s| ==> u[i] == UpperChar(s[i])
  {
    seq(|s|, i requires 0 <= i < |s| => UpperChar(s[i]))
  }

  /** Upper-casing changes letters only: a character that is not an upper-case letter after the
      mapping was that very character before it. */
  lemma UpperKeepsNonLetter(s: string, i: nat)
    requires i < |s|
    requires !('A' <= Upper(s)[i] <= 'Z')
    ensures s[i] == Upper(s)[i]
  {
  }

  /** `pat` occurs in `s` at index `i`. */
  predicate OccursAt(s: string, pat: string, i: int)
  {
    0 <= i && i + |pat| <= |s| && s[i..i + |pat|] == pat
  }

  /** `pat` occurs in `s` at or after `from`. */
  predicate ContainsFrom(s: string, pat: string, from: nat)
    decreases |s| - from
  {
    from + |pat| <= |s| && (s[from..from + |pat|] == pat || ContainsFrom(s, pat, from + 1))
  }

  /** `s.indexOf(pat) != -1`: the scan of `String.indexOf` from the start finds `pat`. */
  predicate Contains(s: string, pat: string)
  {
    ContainsFrom(s, pat, 0)
  }

  /** The scan finds `pat` exactly when it occurs at some index from `from` on. */
  lemma {:induction false} ContainsFromOccurs(s: string, pat: string, from: nat)
    ensures ContainsFrom(s, pat, from) <==> exists i :: from <= i && OccursAt(s, pat, i)
    decreases |s| - from
  {
    if from + |pat| <= |s| {
      ContainsFromOccurs(s, pat, from + 1);
      if s[from..from + |pat|] == pat {
        assert OccursAt(s, pat, from);
      }
      if exists i :: from <= i && OccursAt(s, pat, i) {
        var i :| from <= i && OccursAt(s, pat, i);
        assert i == from || (from + 1 <= i && OccursAt(s, pat, i));
      }
    }
  }

  /** `s.indexOf(pat) != -1` exactly when `pat` occurs in s. */
  lemma ContainsOccurs(s: string, pat: string)
    ensures Contains(s, pat) <==> exists i :: OccursAt(s, pat, i)
  {
    ContainsFromOccurs(s, pat, 0);
  }

  /** Concatenation of a sequence of strings, in order. */
  function Join(parts: seq<string>): string
  {
    if |parts| == 0 then "" else parts[0] + Join(parts[1..])
  }
}

=== FILE: wrappers.dfy ===
/** `None` stands for "no match" and for Java's `null`. */
module Wrappers {

  datatype Option<+T> = None | Some(value: T)
}
